=== FILE: README.md ===
# statusbar — a Dafny model of the block orchestration core

`statusbar` renders an X11 root-window title from a set of blocks: a clock, a
battery gauge, a volume indicator and a shell command. Each block started
with the service refreshes its own content on its own interval. A render loop concatenates the contents
in ascending `Order` and pushes the result to the root window only when it
changed. The configuration is hot-reloadable. On each change notification the
service computes a settings snapshot (a canonical string). If the snapshot
differs from the last one, it re-applies every configured section to the list
of live blocks. A section creates a new block or updates the matching one.
Blocks are never removed.

This project models that core as pure functions over immutable data and proves
properties of it:

| file | module | what it models |
|---|---|---|
| `options.dfy` | `Options` | nullable references and reads that may fail |
| `strings.dfy` | `Strings` | the .NET string operations used: `Trim`, ordinal `IndexOf`, `string.Join`, the scalar-value ordering that stands for `OrderBy(x => x)`, `int` formatting and `int.Parse` |
| `sorting.dfy` | `Sorting` | `Select`, `Where`, and `OrderBy(x => x)` on strings as an insertion sort, with permutation facts |
| `config.dfy` | `Config` | the settings records and their defaults, the four block kinds, and a configuration section |
| `battery.dfy` | `Battery` | `BatteryBlock.UpdateContent`: capacity, status, band, colour and icon |
| `volume.dfy` | `Volume` | `PactlCommand`'s result, `IsMute`, `GetOutputIcon`, `GetVolume` and `VolumeBlock.UpdateContent` |
| `blocks.dfy` | `Blocks` | `BlockBase`: settings, attribute accessors, `UpdateSettings`, and one iteration of `ExecuteAsync` with its markup template |
| `snapshot.dfy` | `Snapshot` | `BlockToString`, `CreateSettingsSnapshot` and `AreSettingsEqual` |
| `registry.dfy` | `Registry` | `CreateOrUpdate`, the type dispatch, `OnSettingsChanged` and the initial dispatch in `ExecuteAsync` |
| `poll.dfy` | `Poll` | `PollBlocks`: stable ordering by `Order`, one tick, and a run of ticks |

Everything outside the core is a parameter. This covers the file system,
the clock, the command block's process and the three `pactl` runs, which
together make up `Blocks.Env`. It also covers configuration binding: a
`Config.Section` carries its `Type` entry, its raw pairs and the result of
`config.Get<TSettings>()`.

Some behaviours of the code are easy to miss, and the model keeps them:

- A section with an empty identity matches the first block of its type,
  whatever that block's identity (`StatusbarService.cs:43`). `Registry.Matches`
  does the same.
- The snapshot does not escape `,`, `=` or `;`, so one value can imitate two
  entries, and different configurations can share a snapshot.
  `Snapshot.SeparatorCollision` exhibits such a pair.
- The snapshot drops only absent (null) values (`StatusbarService.cs:106`). An
  empty value still contributes `key=`.
- When the volume block's sink listing has no `Active Port:` marker,
  `GetOutputIcon` calls `IndexOf` with start index -1 (`VolumeBlock.cs:118`).
  That throws out of `ExecuteAsync` and ends the block's loop.
  `Blocks.Refresh` returns `Faulted` for it, with the block unchanged.
- `PactlCommand` returns `ERR` both for a timeout and for a cancellation
  (`VolumeBlock.cs:58`, `:65`), and so does `Volume.PactlResult`.

`IsMute` and `Trim` are plain functions whose characterisations are separate
lemmas: `Volume.IsMuteMeaning` and `Strings.TrimMeaning`.

## Model

| member | source | states |
|---|---|---|
| Strings.Trim | statusbar/Blocks/VolumeBlock.cs:79 | the trimmed text neither starts nor ends with white space and is no longer than the input |
| Strings.TrimMeaning | statusbar/Blocks/BatteryBlock.cs:50 | `Trim` removes only white space, and only from the two ends: its result is an infix of the input with only white space around it |
| Strings.TrimIdempotent | statusbar/Blocks/BatteryBlock.cs:68 | trimming twice is trimming once |
| Strings.TrimOfTrimmed | statusbar/Blocks/VolumeBlock.cs:99 | text without surrounding white space is left unchanged by `Trim` |
| Strings.IndexOf | statusbar/Blocks/VolumeBlock.cs:117 | ordinal `IndexOf`: the result is a position where the pattern occurs and no earlier position has it; `None` exactly when it occurs nowhere |
| Strings.IndexOfChar | statusbar/Blocks/VolumeBlock.cs:90 | the first occurrence of the character; `None` exactly when it does not occur |
| Strings.IndexOfCharFrom | statusbar/Blocks/VolumeBlock.cs:118 | the first occurrence at or after the start index; `None` when there is none |
| Strings.LexLeTotal | Services/StatusbarService.cs:98 | the model's scalar-value order, which stands for the order `OrderBy(x => x)` sorts by, is total |
| Strings.LexLeAntisymmetric | Services/StatusbarService.cs:108 | under the model's scalar-value order, two strings ordered both ways are equal, so sorting has a unique result |
| Strings.LexLeTransitive | Services/StatusbarService.cs:108 | the model's scalar-value order is transitive |
| Strings.NatToStringRoundTrip | statusbar/Blocks/VolumeBlock.cs:182 | the decimal digits of a natural number read back as that number |
| Strings.IntToString | Services/StatusbarService.cs:99 | integer formatting: non-empty, without surrounding white space, digits with a leading `-` exactly for negative numbers |
| Strings.ParseInt32 | statusbar/Blocks/BatteryBlock.cs:59 | `int.Parse` succeeds only with a value inside the 32-bit range |
| Strings.IntToStringRoundTrip | statusbar/Blocks/VolumeBlock.cs:182 | every 32-bit integer formatted in decimal parses back to itself |
| Strings.Join | Services/StatusbarService.cs:110 | `string.Join` of no strings is empty, and otherwise starts with the first part |
| Strings.JoinLength | Services/StatusbarService.cs:110 | a join is as long as its parts together plus one separator between each two neighbours |
| Strings.JoinAppend | Services/StatusbarService.cs:110 | joining two non-empty runs of parts is joining each run, with one separator between the two |
| Strings.JoinPartAt | Services/StatusbarService.cs:110 | every part sits verbatim in the join, at the offset taken up by the parts before it and their separators |
| Strings.JoinSeparatorBefore | Services/StatusbarService.cs:110 | every part but the first directly follows a separator |
| Strings.JoinPartInfix | Services/StatusbarService.cs:110 | every part occurs in the join |
| Strings.JoinAvoids | Services/StatusbarService.cs:110 | a character found in neither the separator nor any part does not occur in the join |
| Strings.JoinInjective | Services/StatusbarService.cs:110 | with a one-character separator that no part contains, the join determines the parts, given their number or given that none is empty |
| Strings.JoinWithoutSeparator | Services/StatusbarService.cs:154 | joining with the empty separator is plain concatenation of the parts in order |
| Sorting.SortStrings | Services/StatusbarService.cs:108 | `OrderBy(x => x)` yields a sorted permutation of its input |
| Sorting.SortedUnique | Services/StatusbarService.cs:98 | two sorted permutations of the same strings are equal |
| Sorting.SortStringsPermutationInvariant | Services/StatusbarService.cs:98 | permuting the input does not change the sorted output |
| Sorting.FilterMapPermutation | Services/StatusbarService.cs:105-107 | filtering out null values and formatting the rest maps permutations of the pairs to permutations of the entries |
| Sorting.FilterMapAppend | Services/StatusbarService.cs:106-107 | `Where`/`Select` distributes over concatenation |
| Sorting.MapSeqPermutationBy | Services/StatusbarService.cs:98 | `Select` maps permutations to permutations when the selector gives equal results for elements of the two sequences with equal keys |
| Sorting.FilterMapMember | Services/StatusbarService.cs:105-107 | every entry `Where`/`Select` yields comes from some pair of the input |
| Config.KindOfType | Services/StatusbarService.cs:68-84 | a `Type` string selects the kind whose name it is; any other string selects nothing |
| Config.TypeOf | Services/StatusbarService.cs:67 | a section's type is its `Type` entry, or the empty name when it has none, and the empty name selects no kind |
| Config.KindDispatch | Services/StatusbarService.cs:119-134 | a `Type` selects kind `k` exactly when it is `k`'s name |
| Config.DefaultFor | Blocks/BlockBase.cs:6-14 | `new TSettings()` has the base defaults (interval 1000, order 100, background `#2E2A44`, foreground `#ffffff`, empty id and icon) and is of the requested kind |
| Config.Bind | Services/StatusbarService.cs:40 | the bound settings are of the requested kind; a section that binds to nothing yields the kind's defaults, otherwise its common fields are the bound ones |
| Battery.CombinePath | statusbar/Blocks/BatteryBlock.cs:45-46 | `Path.Combine`: an empty name yields the directory; an empty directory or a rooted name yields the name; otherwise the path starts with the directory and ends with the name, with exactly one `/` between them |
| Battery.LevelOf | statusbar/Blocks/BatteryBlock.cs:78-87 | high exactly when the capacity reaches `High`; low exactly when it is below `High` and at most `Low`; medium exactly when strictly between |
| Battery.LevelMonotone | statusbar/Blocks/BatteryBlock.cs:78-87 | a larger capacity never shows a lower band, whatever the thresholds |
| Battery.IsCharging | statusbar/Blocks/BatteryBlock.cs:66-76 | charging exactly when the status file was read and trims to `Charging`; an unreadable file means discharging |
| Battery.Classify | statusbar/Blocks/BatteryBlock.cs:78-87 | the text is shown as read; the colour is the band's colour and the icon is the band's icon for the charging state |
| Battery.UpdateContent | statusbar/Blocks/BatteryBlock.cs:43-91 | an unreadable or unparsable capacity shows `ERR` and keeps the previous colour and icon; otherwise the trimmed capacity text is shown with the colour and icon of its band |
| Battery.ShownCapacityReparses | statusbar/Blocks/BatteryBlock.cs:50-89 | whenever the step does not show `ERR`, the shown text parses back to the capacity that picked the colour |
| Battery.HighWinsOverlap | statusbar/Blocks/BatteryBlock.cs:78-83 | with overlapping thresholds, a capacity in both bands shows the high colour |
| Volume.PactlResult | statusbar/Blocks/VolumeBlock.cs:55-79 | a timeout, a cancellation or a non-zero exit code yields `ERR`; a successful exit yields the trimmed standard output |
| Volume.IsMuteMeaning | statusbar/Blocks/VolumeBlock.cs:82-106 | muted exactly when there is a first `:` and the text after it trims to `yes` |
| Volume.MuteAnswerRead | statusbar/Blocks/VolumeBlock.cs:90-105 | `Mute: yes` and `Mute: no` are read as meant, whatever white space precedes the answer |
| Volume.FailedRunNotMuted | statusbar/Blocks/VolumeBlock.cs:92-95 | the `ERR` of a failed run has no colon and reads as not muted |
| Volume.DigitRunStart | statusbar/Blocks/VolumeBlock.cs:150-153 | the backward scan stops at the start of the maximal run of digits ending at the given index |
| Volume.ParseVolume | statusbar/Blocks/VolumeBlock.cs:136-172 | the volume is between 0 and the 32-bit maximum; it is 0 when the text has no `%`, when no digit directly precedes the first `%`, or when those digits exceed the 32-bit maximum, and otherwise it is the value of those digits |
| Volume.VolumeRead | statusbar/Blocks/VolumeBlock.cs:144-171 | a percentage printed as digits before the first `%` is read back as printed |
| Volume.ParsePort | statusbar/Blocks/VolumeBlock.cs:115-127 | the marker is missing exactly when `Active Port:` occurs nowhere; a port name read is trimmed and lies within one line |
| Volume.PortAt | statusbar/Blocks/VolumeBlock.cs:118-127 | once the marker is found, the listing never counts as missing the marker; a name cut out is trimmed and has no line break |
| Volume.OutputIcon | statusbar/Blocks/VolumeBlock.cs:108-134 | throws exactly when the marker is missing; shows `?` when no name can be cut out; otherwise the headphones or speaker icon, or the block's current icon for any other port |
| Volume.UnterminatedPortLine | statusbar/Blocks/VolumeBlock.cs:117-125 | a first marker with no line end after it shows `?` |
| Volume.EmptyPortLine | statusbar/Blocks/VolumeBlock.cs:117-125 | a line end directly after the first marker shows `?` |
| Volume.PortRead | statusbar/Blocks/VolumeBlock.cs:115-127 | a listing line `Active Port: <name>` is read back as `<name>` when no marker occurs earlier |
| Volume.UpdateContent | statusbar/Blocks/VolumeBlock.cs:174-184 | muted shows the mute icon and colour with no text; otherwise the step throws exactly when the marker is missing, and else shows the port icon, the settings background and the volume read in canonical decimal, which parses back to it |
| Volume.FailedListingThrows | statusbar/Blocks/VolumeBlock.cs:109-118 | when the sink is not muted, a failed `list sinks` run makes the step throw |
| Blocks.BaseAttributes | Blocks/BlockBase.cs:23-28 | two blocks holding the same settings agree on order, identity and foreground, and on background and icon when the kind does not override them, whatever content and own state each holds |
| Blocks.OverriddenAttributes | statusbar/Blocks/BatteryBlock.cs:28-29 | battery and volume blocks show their own background and icon, whatever settings they hold (`VolumeBlock` overrides the same two accessors) |
| Blocks.NewBlock | Blocks/BlockBase.cs:32-36 | a new block has no content and takes the settings' order, id and foreground; battery and volume blocks start with an empty background and icon, the others show their settings' ones |
| Blocks.UpdateSettings | statusbar/Blocks/BatteryBlock.cs:31-35 | a settings update keeps the kind, the content and the block's own background and icon; order, id and foreground follow the new settings, and so do background and icon for kinds that do not override them |
| Blocks.Markup | Blocks/BlockBase.cs:43 | the inner text sits verbatim right after a space and the icon and is followed by a space |
| Blocks.InnerOfMarkup | Blocks/BlockBase.cs:43 | the template loses nothing: the inner text can be read back from the content |
| Blocks.UpdateContent | Blocks/BlockBase.cs:38-42 | the battery and command steps never throw; the clock step throws exactly when formatting the time with its format throws; clock and command steps leave the block's own background and icon alone |
| Blocks.Apply | Blocks/BlockBase.cs:42-43 | the content is the template over the attributes the step just chose and the step's text |
| Blocks.Refresh | Blocks/BlockBase.cs:40-46 | One loop iteration keeps the settings, faults exactly when the content step throws and then leaves the block unchanged, and otherwise takes the step's background and icon and renders the step's text so that it can be read back. |
| Blocks.PlainBlockRefresh | Blocks/BlockBase.cs:40-43 | a clock or command refresh faults exactly for a clock whose format cannot be applied, and otherwise renders the settings' background and icon |
| Blocks.BatteryRefreshShowsBand | statusbar/Blocks/BatteryBlock.cs:78-89 | a battery refresh with a readable capacity renders the band's colour and icon around the capacity text |
| Blocks.UnmutedVolumeRefresh | statusbar/Blocks/VolumeBlock.cs:174-184 | an unmuted refresh with the port marker present renders and keeps the settings background and the port's icon, around the volume in decimal |
| Blocks.MutedVolumeRefresh | statusbar/Blocks/VolumeBlock.cs:175-179 | a muted volume refresh renders the mute colour and icon around empty text |
| Snapshot.BlockEntries | Services/StatusbarService.cs:105-108 | a section's entries come out sorted and are exactly its non-null pairs as `key=value` |
| Snapshot.BlockToString | Services/StatusbarService.cs:102-104 | a null section renders as the empty string; `Snapshot.PairReachesLine` and `Snapshot.PlainLineInjective` state what a present section renders to |
| Snapshot.BlockToStringPermutation | Services/StatusbarService.cs:105-110 | a section's string depends only on the multiset of its pairs |
| Snapshot.NullPairIgnored | Services/StatusbarService.cs:106 | an entry without a value leaves no trace |
| Snapshot.SeparatorCollision | Services/StatusbarService.cs:107-110 | one value `v1,k2=v2` and two entries `k1=v1`, `k2=v2` render the same, although the pairs differ |
| Snapshot.PairReachesLine | Services/StatusbarService.cs:105-110 | every pair with a value occurs in its section's line as `key=value` |
| Snapshot.SectionReachesSnapshot | Services/StatusbarService.cs:96-100 | every section's line occurs in the snapshot behind the first bar |
| Snapshot.PairReachesSnapshot | Services/StatusbarService.cs:96-110 | every pair with a value, of every section, occurs in the snapshot behind the first bar as `key=value` |
| Snapshot.PlainEntries | Services/StatusbarService.cs:107 | when keys and values avoid `,` and `;`, every entry is non-empty and avoids them too |
| Snapshot.PlainLineInjective | Services/StatusbarService.cs:102-111 | when keys and values avoid `,` and `;`, equal section lines mean equal sorted entry lists |
| Snapshot.SnapshotDeterminesEntries | Services/StatusbarService.cs:96-111 | when keys and values avoid `,` and `;` and the section counts agree, equal snapshots mean equal poll intervals and the same sorted entry lists, section for section up to order |
| Snapshot.CreateSettingsSnapshot | Services/StatusbarService.cs:96-100 | the snapshot starts with the poll interval in decimal followed by its first bar character; `Snapshot.SectionReachesSnapshot` and `Snapshot.SnapshotDeterminesEntries` state what follows the bar |
| Snapshot.SnapshotDeterminesPollInterval | Services/StatusbarService.cs:99 | equal snapshots mean equal poll intervals |
| Snapshot.SnapshotOrderIndependent | Services/StatusbarService.cs:96-100 | the same poll interval and sections with the same pair multisets, enumerated in any order, give the same snapshot |
| Snapshot.AreSettingsEqual | Services/StatusbarService.cs:88-94 | the comparison is plain equality, nulls included |
| Registry.FindMatch | Services/StatusbarService.cs:41-43 | the first block of the kind with the section's id (any block of the kind when the id is empty); `None` when no block matches |
| Registry.CreateOrUpdate | Services/StatusbarService.cs:36-55 | without a match exactly one new block with the bound settings is appended; with a match that block alone takes the settings and the list keeps its length |
| Registry.SectionApplied | Services/StatusbarService.cs:44-54 | afterwards some block of the kind holds exactly the section's bound settings |
| Registry.Dispatch | Services/StatusbarService.cs:66-85 | an unknown `Type` leaves the blocks alone; a known one runs `CreateOrUpdate` for its kind |
| Registry.DispatchGrows | Services/StatusbarService.cs:66-85 | one section removes and reorders nothing and adds at most one block |
| Registry.Reconcile | Services/StatusbarService.cs:117-136 | no sections leave the blocks exactly as they were; applying the sections in order keeps every existing block at its position with its content and state, and adds at most one block per section |
| Registry.ReconcileSnoc | Services/StatusbarService.cs:117-136 | the loop over sections with one more section at the end is the loop followed by dispatching that section |
| Registry.ReconcileAppend | Services/StatusbarService.cs:117-136 | the loop over two runs of sections is the loop over the first followed by the loop over the second |
| Registry.ReconcileAppliesLast | Services/StatusbarService.cs:117-136 | after the loop, some block of the last section's kind holds exactly that section's bound settings |
| Registry.UnknownTypeSkipped | Services/StatusbarService.cs:132-134 | a section of unknown type contributes nothing: removing it from anywhere in the list gives the same blocks |
| Registry.MissingTypeSkipped | Services/StatusbarService.cs:118 | a section without a `Type` entry is skipped like one of unknown type |
| Registry.CreateOrUpdateDistinct | Services/StatusbarService.cs:41-54 | blocks of one kind keep distinct identities, and only the first of a kind may have an empty one |
| Registry.ReconcileDistinct | Services/StatusbarService.cs:66-85 | applying any sections keeps identities distinct per kind |
| Registry.Start | Services/StatusbarService.cs:114-136 | the constructor records the initial snapshot; the initial blocks are the loop over the configured sections applied to the empty list, at most one block per section, with identities distinct per kind |
| Registry.StartAppliesLast | Services/StatusbarService.cs:117-136 | at start, some block of the last configured section's kind holds exactly that section's bound settings |
| Registry.OnSettingsChanged | Services/StatusbarService.cs:57-86 | the new snapshot is recorded; an unchanged snapshot changes nothing; a changed one runs the loop over the new sections on the live blocks, so no block is removed, reordered or loses its content |
| Registry.ChangedSettingsApplied | Services/StatusbarService.cs:64-85 | after a change notification, some block of the last section's kind holds exactly that section's bound settings |
| Registry.OnSettingsChangedDistinct | Services/StatusbarService.cs:66-85 | change notifications keep identities distinct per kind |
| Registry.RepeatedNotificationIgnored | Services/StatusbarService.cs:58-62 | a second notification with the same settings changes nothing |
| Registry.ReorderedSettingsIgnored | Services/StatusbarService.cs:58-62 | settings whose sections carry the same pair multisets, enumerated in another order, are not a change |
| Registry.NewIntervalApplied | Services/StatusbarService.cs:57-66 | a notification with a new poll interval is never ignored |
| Registry.EditedSettingsApplied | Services/StatusbarService.cs:57-86 | when keys and values avoid `,` and `;` and the section count stays the same, a notification that edits any entry is never ignored: its sections are applied |
| Poll.InsertByOrder | Services/StatusbarService.cs:155-157 | inserting into a sorted list keeps it sorted and adds exactly the block |
| Poll.InsertByOrderStable | Services/StatusbarService.cs:155-157 | the inserted block goes ahead of every block of its order already in the list |
| Poll.SortByOrder | Services/StatusbarService.cs:154-158 | `OrderBy(b => b.Order)` yields a permutation sorted by order |
| Poll.SortByOrderStable | Services/StatusbarService.cs:155-157 | the sort is stable: the blocks of each order keep their list order |
| Poll.StableSortUnique | Services/StatusbarService.cs:155-157 | a sorted list is determined by how it lists each order's blocks |
| Poll.SortedKept | Services/StatusbarService.cs:155-157 | sorting an already sorted list changes nothing |
| Poll.Render | Services/StatusbarService.cs:154-158 | the bar is the blocks' contents concatenated in the order of the stable sort by `Order` |
| Poll.RenderSorted | Services/StatusbarService.cs:154-158 | blocks already listed in ascending order render as their contents in list order |
| Poll.RenderDependsOnOrderClasses | Services/StatusbarService.cs:154-158 | the bar depends only on the list order within each order |
| Poll.PollTick | Services/StatusbarService.cs:154-163 | a tick shows the rendered bar exactly when it differs from the last one, and remembers it |
| Poll.SecondTickSilent | Services/StatusbarService.cs:159-163 | a second tick over the same blocks shows nothing |
| Poll.PollRun | Services/StatusbarService.cs:149-166 | a run never shows the same bar twice in a row nor starts by repeating the remembered bar, and remembers the last bar it showed |
| Poll.PollRunSnoc | Services/StatusbarService.cs:153-163 | one more tick at the end of a run is one more `PollTick` from the bar the run remembers, its bar shown after the run's bars when it differs |
| Poll.PollRunShowsChange | Services/StatusbarService.cs:153-163 | every tick whose render differs from the remembered bar shows that render, appended to what the run showed so far; every other tick shows nothing; either way the render is remembered |
| Poll.PollRunEndsOnLastFrame | Services/StatusbarService.cs:153-163 | after a run the remembered bar is the last tick's render |
| Poll.EmptyBarNotShown | Services/StatusbarService.cs:150 | starting from the empty bar, blocks without content show nothing |

## Left out

- Blocks.Refresh: `Task.Delay(_settings.Interval, ct)` and the `IsCancellationRequested` test of the loop (`BlockBase.cs:41`, `:44`) are not modelled; a refresh is one iteration of the loop body.
- Blocks that a change notification appends after `ExecuteAsync` started are never started: only `StatusbarService.cs:138` calls `StartAsync`, once, on the blocks created by then. Such a block keeps the empty content forever. The model has no started/not-started distinction, so `Poll.PollRun` takes the refreshed blocks as given.
- Threads, tasks, `Task.Delay`, cancellation and per-block intervals are left out. A block's loop is modelled as one step (`Blocks.Refresh`) and the render loop as a sequence of ticks (`Poll.PollRun`). The model has no interleaving, locking or stop/drain.
- `TimeBlock` and `CommandBlock` content production is outside this core. Their results enter as `Env.clock` and `Env.runCommand`. `Env.clock` returns `None` where `DateTime.Now.ToString(format)` throws a `FormatException` (`TimeBlock.cs:23`), and the clock block then faults.
- Process mechanics of `PactlCommand` are left out: start, stream draining, `Kill`, and the undeclared `_settings.Delay` timeout that `VolumeSettings` does not define. Only how a run ended (`Volume.PactlOutcome`) is modelled.
- Volume.UpdateContent: a `pactl` that cannot be started is not modelled. `process.Start()` (`VolumeBlock.cs:46`) sits outside any `try`, so a missing `pactl` throws out of `UpdateContent` and ends the volume block's loop, just like a missing port marker. `Volume.PactlOutcome` has no such outcome, so the model's volume step faults only for a missing marker.
- File reads, X11 (`XRootWindow.SetWindowName`), logging, dependency injection and `Program.cs` are left out. A failed read is `None`.
- Configuration binding (`config.Get<TSettings>()`, `AsEnumerable()`) is an input. A `Section` carries its raw pairs and the bound result, and the model does not relate the two.
- Config.Bind: a binding that throws is not modelled. `config.Get<TSettings>()` (`StatusbarService.cs:40`) throws `InvalidOperationException` for a value it cannot convert, such as `Order: "abc"`. In `OnSettingsChanged` the throw comes after the new snapshot was stored (`:64`). The remaining sections are skipped, and a repeat notification with the same settings is then ignored. In `ExecuteAsync` (`:117-136`) the service faults before any block starts. The model's binding always yields settings, so `Registry.Reconcile` always runs every section.
- Pair keys are full configuration paths, and those paths include the section's index. Moving a section within the configuration file therefore changes its pairs. The order-independence lemmas only concern the order in which equal pairs and sections are enumerated. The snapshot is also not injective, because separators are not escaped (`Snapshot.SeparatorCollision`).
- `StatusbarSettings.Blocks` being null and a null section inside it are left out. The service would throw on a null `Blocks` list in the dispatch loop anyway. `Snapshot.BlockToString` still maps a missing section to the empty string.
- `Registry.Start` applies one settings value both at construction and in `ExecuteAsync`. A change notification arriving between the two is not modelled.
- `Blocks.Block` holds one settings value for both the base class's and the subclass's copy. `BatteryBlock` and `VolumeBlock` always assign them together.
- Strings.IsWhite: only ASCII white space (tab, line feed, vertical tab, form feed, carriage return, space) is trimmed. .NET `Trim` also removes other Unicode white space.
- Strings.ParseInt32: it is only applied to text without surrounding white space, which is how every caller uses `int.Parse`. The model ignores culture-specific signs and digits.
- Strings.LexLe: `OrderBy(x => x)` uses the current culture's comparison. The model compares Unicode scalar values (Dafny `char`s) one by one. This also differs from ordinal UTF-16 order: a character above U+FFFF sorts after U+E000–U+FFFF here, while in UTF-16 its surrogate pair sorts before them. The culture comparison can also rank distinct strings as equal, for example strings that differ only by a soft hyphen (U+00AD). The stable sort then keeps their input order, so in C# `Snapshot.SnapshotOrderIndependent` holds only when no two section lines, and no two entries of one section, tie in this way.
- Volume.DigitRunStart: `char.IsDigit` also accepts non-ASCII decimal digits, and `int.Parse` then rejects them. The model treats only `0`–`9` as digits.
- Registry.Reconcile: applying the same sections twice need not give the same blocks. Take two sections of one kind, the first with id `x` and the second with an empty id. The second renames the block the first created, so a second pass creates another `x`. Neither the model nor the C# code is idempotent here, so no such lemma is stated.

=== FILE: battery.dfy ===
/** The decision logic of the battery block: the capacity and status files'
    contents are classified into a level, which picks the colour and icon. */
module Battery {
  import opened Options
  import opened Strings
  import opened Config

  /** The three bands the thresholds cut the capacity into. */
  datatype Level = High | Medium | Low

  /** Bands in increasing order. */
  function Rank(l: Level): nat {
    match l
    case Low => 0
    case Medium => 1
    case High => 2
  }

  /** The `if`/`else if`/`else` on the capacity: the `High` test comes first,
      so it wins even when the thresholds overlap. */
  function LevelOf(e: BatteryExtra, capacity: int): (l: Level)
    ensures l == High <==> capacity >= e.high
    ensures l == Low <==> capacity < e.high && capacity <= e.low
    ensures l == Medium <==> e.low < capacity < e.high
  {
    if capacity >= e.high then High
    else if capacity <= e.low then Low
    else Medium
  }

  /** A fuller battery never shows a lower band, whatever the thresholds. */
  lemma LevelMonotone(e: BatteryExtra, c1: int, c2: int)
    requires c1 <= c2
    ensures Rank(LevelOf(e, c1)) <= Rank(LevelOf(e, c2))
  {
  }

  /** The battery charges exactly when its status file could be read and
      reads `Charging` once trimmed; `Discharging`, any other text and a read
      failure all mean discharging. */
  function IsCharging(status: Option<string>): (r: bool)
    ensures r <==> status.Some? && Trim(status.value) == "Charging"
  {
    match status
    case None => false
    case Some(text) =>
      var t := Trim(text);
      if t == "Discharging" then false
      else if t == "Charging" then true
      else false
  }

  function ColourOf(e: BatteryExtra, l: Level): string {
    match l
    case High => e.highColour
    case Medium => e.mediumColour
    case Low => e.lowColour
  }

  function IconOf(e: BatteryExtra, l: Level, charging: bool): string {
    match l
    case High => if charging then e.highIconCharging else e.highIconDischarging
    case Medium => if charging then e.mediumIconCharging else e.mediumIconDischarging
    case Low => if charging then e.lowIconCharging else e.lowIconDischarging
  }

  /** `Path.Combine(dir, name)` on Unix: an empty `name` yields `dir`, an
      empty `dir` or a rooted `name` yields `name`; otherwise a separator is
      added unless `dir` already ends with one. */
  function Combine(dir: string, name: string): string {
    if |name| == 0 then dir
    else if |dir| == 0 || name[0] == '/' then name
    else if dir[|dir| - 1] == '/' then dir + name
    else dir + "/" + name
  }

  /** The combined path is the directory when the name is empty, and the
      name itself when there is no directory or the name is rooted;
      otherwise it starts with the directory and ends with the name, with
      exactly one `/` between them. */
  lemma CombinePath(dir: string, name: string)
    ensures |name| == 0 ==> Combine(dir, name) == dir
    ensures |name| > 0 && (|dir| == 0 || name[0] == '/') ==> Combine(dir, name) == name
    ensures var r := Combine(dir, name);
            |dir| > 0 && |name| > 0 && name[0] != '/' ==>
              && |r| >= |dir| + |name| && |r| <= |dir| + 1 + |name|
              && r[..|dir|] == dir && r[|r| - |name|..] == name
              && r[|r| - |name| - 1] == '/'
              && (dir[|dir| - 1] == '/' <==> |r| == |dir| + |name|)
  {
  }

  function BatteryDir(e: BatteryExtra): string {
    "/sys/class/power_supply/" + e.batteryLabel
  }

  function CapacityPath(e: BatteryExtra): string {
    Combine(BatteryDir(e), "capacity")
  }

  function StatusPath(e: BatteryExtra): string {
    Combine(BatteryDir(e), "status")
  }

  /** One content step of the battery block. `capacityFile` and `statusFile`
      are the two files' contents, `None` when reading failed; `bg` and
      `icon` are the block's state before the step. */
  function UpdateContent(e: BatteryExtra, capacityFile: Option<string>, statusFile: Option<string>,
                         bg: string, icon: string): (r: Produced)
    // an unreadable or unparsable capacity shows ERR and keeps the old state
    ensures (capacityFile.None? || ParseInt32(Trim(capacityFile.value)).None?)
            ==> r == Produced("ERR", bg, icon)
    // otherwise the trimmed text is shown and the band of its value picks
    // the colour and the icon
    ensures capacityFile.Some? && ParseInt32(Trim(capacityFile.value)).Some? ==>
              var capacity := ParseInt32(Trim(capacityFile.value)).value;
              var level := LevelOf(e, capacity);
              && r.inner == Trim(capacityFile.value)
              && r.bg == ColourOf(e, level)
              && r.icon == IconOf(e, level, IsCharging(statusFile))
  {
    match capacityFile
    case None => Produced("ERR", bg, icon)
    case Some(text) =>
      var capacityText := Trim(text);
      match ParseInt32(capacityText)
      case None => Produced("ERR", bg, icon)
      case Some(capacity) => Classify(e, capacityText, capacity, IsCharging(statusFile))
  }

  /** The `if`/`else if`/`else` over the parsed capacity: the band picks the
      colour and, with the charging state, the icon; the text is shown as
      read. */
  function Classify(e: BatteryExtra, capacityText: string, capacity: int, charging: bool): (r: Produced)
    ensures r.inner == capacityText
    ensures r.bg == ColourOf(e, LevelOf(e, capacity))
    ensures r.icon == IconOf(e, LevelOf(e, capacity), charging)
  {
    if capacity >= e.high then
      Produced(capacityText, e.highColour, if charging then e.highIconCharging else e.highIconDischarging)
    else if capacity <= e.low then
      Produced(capacityText, e.lowColour, if charging then e.lowIconCharging else e.lowIconDischarging)
    else
      Produced(capacityText, e.mediumColour, if charging then e.mediumIconCharging else e.mediumIconDischarging)
  }

  /** On success the shown text reads back as the capacity it was classified
      by, and it is the unmodified trimmed file text (so `007` stays `007`). */
  lemma ShownCapacityReparses(e: BatteryExtra, capacityFile: Option<string>, statusFile: Option<string>,
                              bg: string, icon: string)
    requires UpdateContent(e, capacityFile, statusFile, bg, icon).inner != "ERR"
    ensures capacityFile.Some?
    ensures var r := UpdateContent(e, capacityFile, statusFile, bg, icon);
            && ParseInt32(r.inner).Some?
            && r.bg == ColourOf(e, LevelOf(e, ParseInt32(r.inner).value))
  {
    var r := UpdateContent(e, capacityFile, statusFile, bg, icon);
    TrimIdempotent(capacityFile.value);
  }

  /** The high band wins an overlap: with `Low >= High` a capacity in
      `[High, Low]` is shown in the high colour, not the low one. */
  lemma HighWinsOverlap(e: BatteryExtra, text: string, statusFile: Option<string>, bg: string, icon: string)
    requires ParseInt32(Trim(text)).Some?
    requires e.high <= ParseInt32(Trim(text)).value <= e.low
    ensures UpdateContent(e, Some(text), statusFile, bg, icon).bg == e.highColour
  {
  }
}

=== FILE: blocks.dfy ===
/** A block: its settings, its rendered content and, for the battery and
    volume kinds, the background and icon its own content step maintains.
    One refresh runs the kind's content step against the outside world and
    wraps the result in the block's markup. */
module Blocks {
  import opened Options
  import opened Strings
  import opened Config
  import Battery
  import Volume

  /** `settings` stands for both the base class's settings and the
      subclass's typed copy, which are always assigned together; `bg` and
      `icon` are the battery and volume blocks' own state. */
  datatype Block = Block(settings: BlockSettings, content: string, bg: string, icon: string)

  function KindOf(b: Block): Kind {
    ExtraKind(b.settings.extra)
  }

  /** The battery and volume blocks override `Background` and `Icon` with
      their own state. */
  predicate OverridesAttributes(k: Kind) {
    k == BatteryKind || k == VolumeKind
  }

  function Order(b: Block): int {
    b.settings.base.order
  }

  function Id(b: Block): string {
    b.settings.base.id
  }

  function Foreground(b: Block): string {
    b.settings.base.foreground
  }

  function Background(b: Block): string {
    if OverridesAttributes(KindOf(b)) then b.bg else b.settings.base.background
  }

  function Icon(b: Block): string {
    if OverridesAttributes(KindOf(b)) then b.icon else b.settings.base.icon
  }

  /** The base accessors depend on nothing but the settings: two blocks
      holding the same settings agree on order, identity and foreground, and
      on background and icon unless the kind overrides them, whatever
      content and own state each has. */
  lemma BaseAttributes(b: Block, c: Block)
    requires b.settings == c.settings
    ensures Order(b) == Order(c) && Id(b) == Id(c) && Foreground(b) == Foreground(c)
    ensures !OverridesAttributes(KindOf(b)) ==> Background(b) == Background(c) && Icon(b) == Icon(c)
  {
  }

  /** A battery or volume block shows its own background and icon, whatever
      its settings say. */
  lemma OverriddenAttributes(b: Block, s: BlockSettings)
    requires KindOf(b) == BatteryKind || KindOf(b) == VolumeKind
    requires ExtraKind(s.extra) == KindOf(b)
    ensures Background(b) == b.bg && Icon(b) == b.icon
    ensures Background(b.(settings := s)) == b.bg && Icon(b.(settings := s)) == b.icon
  {
  }

  /** A freshly constructed block: no content yet; the battery and volume
      blocks start with an empty background and icon of their own, the others
      show their settings' ones. */
  function NewBlock(s: BlockSettings): (b: Block)
    ensures b.content == ""
    ensures KindOf(b) == ExtraKind(s.extra) && b.settings == s
    ensures Order(b) == s.base.order && Id(b) == s.base.id && Foreground(b) == s.base.foreground
    ensures OverridesAttributes(KindOf(b)) ==> Background(b) == "" && Icon(b) == ""
    ensures !OverridesAttributes(KindOf(b)) ==> Background(b) == s.base.background && Icon(b) == s.base.icon
  {
    Block(s, "", "", "")
  }

  /** `UpdateSettings(s)`: the block takes the new settings (the subclasses'
      cast requires them to be of the block's own kind). Order, identity and
      foreground follow them at once, and so do background and icon unless
      the kind overrides them; the content and the block's own state are kept. */
  function UpdateSettings(b: Block, s: BlockSettings): (r: Block)
    requires ExtraKind(s.extra) == KindOf(b)
    ensures r.settings == s && KindOf(r) == KindOf(b)
    ensures r.content == b.content && r.bg == b.bg && r.icon == b.icon
    ensures Order(r) == s.base.order && Id(r) == s.base.id && Foreground(r) == s.base.foreground
    ensures !OverridesAttributes(KindOf(b)) ==> Background(r) == s.base.background && Icon(r) == s.base.icon
    ensures OverridesAttributes(KindOf(b)) ==> Background(r) == Background(b) && Icon(r) == Icon(b)
  {
    b.(settings := s)
  }

  // ---------------------------------------------------------------------------
  // Markup
  // ---------------------------------------------------------------------------

  /** Everything the template puts before the inner text; it ends with a
      space and the icon. */
  function MarkupPrefix(bg: string, fg: string, icon: string): string {
    "^c" + bg + "^^t0,0,20,40,4^^f20^^c" + fg + "^^b" + bg + "^ " + icon
  }

  /** Everything the template puts after the inner text; it starts with a
      space. */
  function MarkupSuffix(bg: string): string {
    " ^c" + bg + "^^t0,0,20,40,5^"
  }

  /** The content template of one refresh. The inner text sits verbatim right
      after a space and the icon, and is followed by a space. */
  function Markup(bg: string, fg: string, icon: string, inner: string): (r: string)
    ensures var n := |MarkupPrefix(bg, fg, icon)|;
            && |r| == n + |inner| + |MarkupSuffix(bg)|
            && r[n - |icon| - 1..n] == " " + icon
            && r[n..n + |inner|] == inner
            && r[n + |inner|] == ' '
  {
    var p := MarkupPrefix(bg, fg, icon);
    var r := p + inner + MarkupSuffix(bg);
    assert p[|p| - |icon| - 1..] == " " + icon;
    r
  }

  /** Reads the inner text back out of a content string, given the attributes
      it was rendered with. */
  function InnerOf(content: string, bg: string, fg: string, icon: string): Option<string> {
    var p := MarkupPrefix(bg, fg, icon);
    var q := MarkupSuffix(bg);
    if |content| >= |p| + |q| && content[..|p|] == p && content[|content| - |q|..] == q
    then Some(content[|p|..|content| - |q|])
    else None
  }

  /** The template loses nothing: the inner text can be read back, so equal
      attributes and equal content mean equal inner text. */
  lemma InnerOfMarkup(bg: string, fg: string, icon: string, inner: string)
    ensures InnerOf(Markup(bg, fg, icon, inner), bg, fg, icon) == Some(inner)
  {
    var p := MarkupPrefix(bg, fg, icon);
    var q := MarkupSuffix(bg);
    var r := Markup(bg, fg, icon, inner);
    assert r == p + inner + q;
    assert r[..|p|] == p;
    assert r[|r| - |q|..] == q;
    assert r[|p|..|r| - |q|] == inner;
  }

  // ---------------------------------------------------------------------------
  // One refresh
  // ---------------------------------------------------------------------------

  /** The outside world one refresh consults: file contents (`None` when a
      read fails), the current time formatted with the given format (`None`
      when the format is invalid and formatting throws), the command block's
      result, and how a `pactl` run with the given arguments ends. */
  datatype Env = Env(
    readFile: string -> Option<string>,
    clock: string -> Option<string>,
    runCommand: (string, int) -> string,
    pactl: string -> Volume.PactlOutcome)

  /** The kind's `UpdateContent`; `None` when it throws. */
  function UpdateContent(b: Block, env: Env): (r: Option<Produced>)
    // the battery and command steps never throw; the clock step throws
    // exactly when its format does
    ensures KindOf(b) == BatteryKind || KindOf(b) == CommandKind ==> r.Some?
    ensures b.settings.extra.TimeX? ==>
              (r.None? <==> env.clock(b.settings.extra.time.format).None?)
    // clock and command steps leave the block's own state alone
    ensures !OverridesAttributes(KindOf(b)) && r.Some? ==> r.value.bg == b.bg && r.value.icon == b.icon
  {
    match b.settings.extra
    case TimeX(t) =>
      assert !OverridesAttributes(KindOf(b));
      TimeStep(t, b, env)
    case CommandX(c) => Some(Produced(env.runCommand(c.command, c.timeout), b.bg, b.icon))
    case BatteryX(e) => Some(BatteryStep(e, b, env))
    case VolumeX(e) =>
      assert OverridesAttributes(KindOf(b)) && KindOf(b) == VolumeKind;
      VolumeStep(e, b, env)
  }

  /** The clock block's content step: the formatted time, or a throw. */
  function TimeStep(t: TimeExtra, b: Block, env: Env): Option<Produced> {
    match env.clock(t.format)
    case None => None
    case Some(text) => Some(Produced(text, b.bg, b.icon))
  }

  /** The battery block's content step over its two file reads. */
  function BatteryStep(e: BatteryExtra, b: Block, env: Env): Produced {
    Battery.UpdateContent(e, env.readFile(Battery.CapacityPath(e)), env.readFile(Battery.StatusPath(e)),
                          b.bg, b.icon)
  }

  /** The volume block's content step over the trimmed results of its three
      `pactl` runs. */
  function VolumeStep(e: VolumeExtra, b: Block, env: Env): Option<Produced> {
    Volume.UpdateContent(e, b.settings.base.background, b.icon,
                         Volume.PactlResult(env.pactl(Volume.MuteArguments)),
                         Volume.PactlResult(env.pactl(Volume.SinksArguments)),
                         Volume.PactlResult(env.pactl(Volume.VolumeArguments)))
  }

  /** Applies a content step's result: the block's own state is updated
      first and the attributes are read afterwards, so the content shows the
      background and icon this very step chose. */
  function Apply(b: Block, p: Produced): (r: Block)
    ensures r.settings == b.settings && r.bg == p.bg && r.icon == p.icon
    ensures OverridesAttributes(KindOf(b)) ==> Background(r) == p.bg && Icon(r) == p.icon
    ensures r.content == Markup(Background(r), Foreground(r), Icon(r), p.inner)
  {
    var updated := b.(bg := p.bg, icon := p.icon);
    updated.(content := Markup(Background(updated), Foreground(updated), Icon(updated), p.inner))
  }

  /** How one loop iteration of a block ends: with new content, or with the
      content step throwing, which leaves the block as it was and ends its
      loop. */
  datatype Step = Refreshed(block: Block) | Faulted(block: Block)

  function Refresh(b: Block, env: Env): (r: Step)
    ensures r.block.settings == b.settings
    ensures r.Faulted? <==> UpdateContent(b, env).None?
    ensures r.Faulted? ==> r.block == b
    ensures r.Refreshed? ==> r.block == Apply(b, UpdateContent(b, env).value)
    ensures r.Refreshed? ==> InnerOf(r.block.content, Background(r.block), Foreground(r.block), Icon(r.block))
                             == Some(UpdateContent(b, env).value.inner)
  {
    match UpdateContent(b, env)
    case None => Faulted(b)
    case Some(p) =>
      var r := Apply(b, p);
      InnerOfMarkup(Background(r), Foreground(r), Icon(r), p.inner);
      Refreshed(r)
  }

  /** A refresh of a clock or command block faults only for a clock whose
      format is invalid; otherwise it renders the settings' background and
      icon around the produced text. */
  lemma PlainBlockRefresh(b: Block, env: Env)
    requires !OverridesAttributes(KindOf(b))
    ensures Refresh(b, env).Faulted? <==>
              b.settings.extra.TimeX? && env.clock(b.settings.extra.time.format).None?
    ensures Refresh(b, env).Refreshed? ==>
              Refresh(b, env).block.content
                == Markup(b.settings.base.background, b.settings.base.foreground, b.settings.base.icon,
                          UpdateContent(b, env).value.inner)
  {
  }

  /** A battery refresh whose capacity reads and parses renders the colour and
      icon of the capacity's band around the trimmed capacity text. */
  lemma BatteryRefreshShowsBand(b: Block, env: Env)
    requires b.settings.extra.BatteryX?
    requires var e := b.settings.extra.battery;
             var text := env.readFile(Battery.CapacityPath(e));
             text.Some? && ParseInt32(Trim(text.value)).Some?
    ensures var e := b.settings.extra.battery;
            var text := Trim(env.readFile(Battery.CapacityPath(e)).value);
            var level := Battery.LevelOf(e, ParseInt32(text).value);
            var charging := Battery.IsCharging(env.readFile(Battery.StatusPath(e)));
            Refresh(b, env).block.content
              == Markup(Battery.ColourOf(e, level), b.settings.base.foreground,
                        Battery.IconOf(e, level, charging), text)
  {
    var e := b.settings.extra.battery;
    var p := BatteryStep(e, b, env);
    BatteryDelegates(b, env);
    assert Refresh(b, env) == Refreshed(Apply(b, p));
  }

  /** A muted volume refresh renders the mute colour and icon around empty
      text, whatever the other two `pactl` runs print. */
  lemma MutedVolumeRefresh(b: Block, env: Env)
    requires b.settings.extra.VolumeX?
    requires Volume.IsMute(Volume.PactlResult(env.pactl(Volume.MuteArguments)))
    ensures Refresh(b, env).Refreshed?
    ensures var e := b.settings.extra.volume;
            var r := Refresh(b, env).block;
            && r.bg == e.muteColour && r.icon == e.muteIcon
            && r.content == Markup(e.muteColour, b.settings.base.foreground, e.muteIcon, "")
  {
    MutedVolumeStep(b, env);
  }

  /** An unmuted volume refresh whose sink listing has the port marker
      renders the settings' background and the port's icon around the volume
      in decimal, and keeps that background and icon as the block's own. */
  lemma UnmutedVolumeRefresh(b: Block, env: Env)
    requires b.settings.extra.VolumeX?
    requires !Volume.IsMute(Volume.PactlResult(env.pactl(Volume.MuteArguments)))
    requires !Volume.ParsePort(Volume.PactlResult(env.pactl(Volume.SinksArguments))).MissingMarker?
    ensures Refresh(b, env).Refreshed?
    ensures var e, r := b.settings.extra.volume, Refresh(b, env).block;
            var sinks := Volume.PactlResult(env.pactl(Volume.SinksArguments));
            var icon := Volume.OutputIcon(e, b.icon, sinks).value;
            var volume := Volume.ParseVolume(Volume.PactlResult(env.pactl(Volume.VolumeArguments)));
            && r.bg == b.settings.base.background && r.icon == icon
            && r.content == Markup(b.settings.base.background, b.settings.base.foreground, icon, IntToString(volume))
  {
    VolumeDelegates(b, env);
    var p := VolumeStep(b.settings.extra.volume, b, env).value;
    assert Refresh(b, env) == Refreshed(Apply(b, p));
  }

  /** The content step of a muted volume block. */
  lemma MutedVolumeStep(b: Block, env: Env)
    requires b.settings.extra.VolumeX?
    requires Volume.IsMute(Volume.PactlResult(env.pactl(Volume.MuteArguments)))
    ensures var e := b.settings.extra.volume;
            UpdateContent(b, env) == Some(Produced("", e.muteColour, e.muteIcon))
  {
    VolumeDelegates(b, env);
  }

  /** A battery block's content step is `BatteryStep`, which never throws. */
  lemma BatteryDelegates(b: Block, env: Env)
    requires b.settings.extra.BatteryX?
    ensures UpdateContent(b, env) == Some(BatteryStep(b.settings.extra.battery, b, env))
  {
  }

  /** A volume block's content step is `VolumeStep`. */
  lemma VolumeDelegates(b: Block, env: Env)
    requires b.settings.extra.VolumeX?
    ensures UpdateContent(b, env) == VolumeStep(b.settings.extra.volume, b, env)
  {
  }
}

=== FILE: config.dfy ===
/** Block settings records with their defaults, the four block kinds and the
    shape in which a configuration section reaches the service: its `Type`
    entry, its raw `key=value` pairs and what binding it to a settings record
    produces. */
module Config {
  import opened Options

  /** The four block kinds a `Type` entry can select. */
  datatype Kind = TimeKind | BatteryKind | VolumeKind | CommandKind

  /** The `Type` string that selects each kind. */
  function KindName(k: Kind): string {
    match k
    case TimeKind => "TimeBlock"
    case BatteryKind => "BatteryBlock"
    case VolumeKind => "VolumeBlock"
    case CommandKind => "CommandBlock"
  }

  /** The dispatch `switch` over a section's `Type`: one of the four names
      selects its kind, anything else is an unknown type. */
  function KindOfType(t: string): (r: Option<Kind>)
    ensures r.Some? ==> KindName(r.value) == t
    ensures r.None? ==> forall k :: KindName(k) != t
  {
    if t == "TimeBlock" then Some(TimeKind)
    else if t == "BatteryBlock" then Some(BatteryKind)
    else if t == "VolumeBlock" then Some(VolumeKind)
    else if t == "CommandBlock" then Some(CommandKind)
    else None
  }

  /** A kind's own name selects it, and only its name does. */
  lemma KindDispatch(t: string, k: Kind)
    ensures KindOfType(t) == Some(k) <==> t == KindName(k)
  {
  }

  /** The settings every block has. */
  datatype Settings = Settings(
    interval: int,
    id: string,
    typeName: string,
    order: int,
    icon: string,
    background: string,
    foreground: string)

  const DefaultSettings := Settings(1000, "", "", 100, "", "#2E2A44", "#ffffff")

  /** The settings only a clock block has. */
  datatype TimeExtra = TimeExtra(format: string)

  const DefaultTime := TimeExtra("HH:mm:ss")

  /** The settings only a battery block has: which battery, the two
      thresholds, an icon per level and charging state, a colour per level. */
  datatype BatteryExtra = BatteryExtra(
    batteryLabel: string,
    high: int,
    low: int,
    highIconDischarging: string,
    mediumIconDischarging: string,
    lowIconDischarging: string,
    highIconCharging: string,
    mediumIconCharging: string,
    lowIconCharging: string,
    highColour: string,
    mediumColour: string,
    lowColour: string)

  const DefaultBattery := BatteryExtra(
    "BAT0", 90, 20, "F ", "M ", "L ", "F+", "M+", "L+", "#3AA655", "#C9A227", "#EE6C4D")

  /** The settings only a volume block has. */
  datatype VolumeExtra = VolumeExtra(
    muteIcon: string,
    speakerIcon: string,
    headphonesIcon: string,
    muteColour: string)

  const DefaultVolume := VolumeExtra("M", "S", "H", "#FFFFFF")

  /** The settings only a command block has. */
  datatype CommandExtra = CommandExtra(command: string, timeout: int)

  const DefaultCommand := CommandExtra("", 1000)

  /** The kind-specific part of a block's settings; its variant is the
      block's kind. */
  datatype Extra =
    | TimeX(time: TimeExtra)
    | BatteryX(battery: BatteryExtra)
    | VolumeX(volume: VolumeExtra)
    | CommandX(command: CommandExtra)

  function ExtraKind(e: Extra): Kind {
    match e
    case TimeX(_) => TimeKind
    case BatteryX(_) => BatteryKind
    case VolumeX(_) => VolumeKind
    case CommandX(_) => CommandKind
  }

  /** A complete settings record of one kind (`TimeSettings`,
      `BatterySettings`, `VolumeSettings` or `CommandSettings`). */
  datatype BlockSettings = BlockSettings(base: Settings, extra: Extra)

  /** `new TSettings()` for the kind's settings type. */
  function DefaultFor(k: Kind): (r: BlockSettings)
    ensures r.base == DefaultSettings
    ensures ExtraKind(r.extra) == k
  {
    match k
    case TimeKind => BlockSettings(DefaultSettings, TimeX(DefaultTime))
    case BatteryKind => BlockSettings(DefaultSettings, BatteryX(DefaultBattery))
    case VolumeKind => BlockSettings(DefaultSettings, VolumeX(DefaultVolume))
    case CommandKind => BlockSettings(DefaultSettings, CommandX(DefaultCommand))
  }

  /** One raw configuration entry; `None` is a section entry without a value.
      The key is the entry's full configuration path, which includes the
      section's position in the block list. */
  datatype Pair = Pair(key: string, value: Option<string>)

  /** What binding a section to each settings type produces: the common
      fields and, for every kind, the kind-specific fields (missing entries
      already replaced by their defaults). */
  datatype Binding = Binding(
    base: Settings,
    time: TimeExtra,
    battery: BatteryExtra,
    volume: VolumeExtra,
    command: CommandExtra)

  /** One block section of the configuration: its `Type` entry, every entry
      of the section as a raw pair, and the result of binding it (`None` when
      binding yields no object). */
  datatype Section = Section(typeTag: Option<string>, pairs: seq<Pair>, binding: Option<Binding>)

  /** `block["Type"] ?? ""`: the section's `Type` entry, or the empty name
      when it has none. */
  function TypeOf(s: Section): (r: string)
    ensures s.typeTag.Some? ==> r == s.typeTag.value
    ensures s.typeTag.None? ==> r == "" && KindOfType(r).None?
  {
    s.typeTag.GetOr("")
  }

  /** `config.Get<TSettings>() ?? new TSettings()` for the kind's settings
      type: always a record of kind `k`. */
  function Bind(s: Section, k: Kind): (r: BlockSettings)
    ensures ExtraKind(r.extra) == k
    ensures s.binding.None? ==> r == DefaultFor(k)
    ensures s.binding.Some? ==> r.base == s.binding.value.base
  {
    match s.binding
    case None => DefaultFor(k)
    case Some(b) =>
      var extra := match k
        case TimeKind => TimeX(b.time)
        case BatteryKind => BatteryX(b.battery)
        case VolumeKind => VolumeX(b.volume)
        case CommandKind => CommandX(b.command);
      BlockSettings(b.base, extra)
  }

  /** The service's own settings: the poll interval of the render loop and
      the block sections in configuration order. */
  datatype StatusbarSettings = StatusbarSettings(pollInterval: int, blocks: seq<Section>)

  const DefaultPollInterval := 1000

  /** What a block's content step yields: the inner text, and the
      background and icon state it leaves behind (only battery and volume
      blocks use that state). */
  datatype Produced = Produced(inner: string, bg: string, icon: string)
}

=== FILE: options.dfy ===
/** An optional value, standing in for C#'s nullable references and for
    reads that may fail. */
module Options {

  datatype Option<+T> = None | Some(value: T) {

    /** The wrapped value, or `default` when there is none (C#'s `??`). */
    function GetOr(default: T): T
    {
      match this
      case Some(v) => v
      case None => default
    }
  }
}

=== FILE: poll.dfy ===
/** The render loop: each tick concatenates the blocks' contents in
    ascending `Order` (a stable sort, so blocks of equal order keep their
    list order) and pushes the bar to the root window only when it changed. */
module Poll {
  import opened Options
  import opened Strings
  import opened Sorting
  import opened Blocks

  // ---------------------------------------------------------------------------
  // Stable sort by order
  // ---------------------------------------------------------------------------

  predicate SortedByOrder(bs: seq<Block>) {
    forall i, j :: 0 <= i < j < |bs| ==> Order(bs[i]) <= Order(bs[j])
  }

  /** The blocks of order `v`, in list order: what a stable sort must keep. */
  function OfOrder(bs: seq<Block>, v: int): seq<Block> {
    if |bs| == 0 then []
    else (if Order(bs[0]) == v then [bs[0]] else []) + OfOrder(bs[1..], v)
  }

  lemma OfOrderCons(x: Block, s: seq<Block>, v: int)
    ensures OfOrder([x] + s, v) == (if Order(x) == v then [x] else []) + OfOrder(s, v)
  {
    assert ([x] + s)[1..] == s;
  }

  /** Inserts `b` in front of the first block whose order is not below its
      own, so it precedes the blocks of equal order already there. */
  function InsertByOrder(b: Block, s: seq<Block>): (r: seq<Block>)
    requires SortedByOrder(s)
    ensures SortedByOrder(r)
    ensures multiset(r) == multiset(s) + multiset{b}
    ensures |r| == |s| + 1 && (r[0] == b || (|s| > 0 && r[0] == s[0]))
  {
    if |s| == 0 then [b]
    else if Order(b) <= Order(s[0]) then
      ConsSorted(b, s);
      [b] + s
    else
      var rest := InsertByOrder(b, s[1..]);
      assert s == [s[0]] + s[1..];
      ConsSorted(s[0], rest);
      [s[0]] + rest
  }

  /** A block no later than the head of a sorted list can go in front. */
  lemma ConsSorted(x: Block, s: seq<Block>)
    requires SortedByOrder(s)
    requires |s| > 0 ==> Order(x) <= Order(s[0])
    ensures SortedByOrder([x] + s)
  {
    var r := [x] + s;
    forall i, j | 0 <= i < j < |r|
      ensures Order(r[i]) <= Order(r[j])
    {
      if i == 0 && j > 1 {
        assert Order(s[0]) <= Order(s[j - 1]);
      }
    }
  }

  /** Insertion puts `b` ahead of every block of its own order. */
  lemma {:induction false} InsertByOrderStable(b: Block, s: seq<Block>, v: int)
    requires SortedByOrder(s)
    ensures OfOrder(InsertByOrder(b, s), v) == (if Order(b) == v then [b] else []) + OfOrder(s, v)
    decreases |s|
  {
    if |s| == 0 {
      OfOrderCons(b, [], v);
    } else if Order(b) <= Order(s[0]) {
      OfOrderCons(b, s, v);
    } else {
      var rest := InsertByOrder(b, s[1..]);
      InsertByOrderStable(b, s[1..], v);
      InsertPastHead(b, s);
      assert s == [s[0]] + s[1..];
      ClassBehindHead(s[0], rest, s[1..], (if Order(b) == v then [b] else []), v);
    }
  }

  /** Past a head of lower order, insertion happens in the tail. */
  lemma InsertPastHead(b: Block, s: seq<Block>)
    requires SortedByOrder(s) && |s| > 0 && Order(s[0]) < Order(b)
    ensures InsertByOrder(b, s) == [s[0]] + InsertByOrder(b, s[1..])
  {
  }

  /** A common head adds the same block to two order classes. */
  lemma ClassBehindHead(x: Block, rest: seq<Block>, tail: seq<Block>, pre: seq<Block>, v: int)
    requires OfOrder(rest, v) == pre + OfOrder(tail, v)
    requires |pre| > 0 ==> Order(x) != v
    ensures OfOrder([x] + rest, v) == pre + OfOrder([x] + tail, v)
  {
    OfOrderCons(x, rest, v);
    OfOrderCons(x, tail, v);
  }

  /** `OrderBy(b => b.Order)`: sorted and a permutation of its input. */
  function SortByOrder(bs: seq<Block>): (r: seq<Block>)
    ensures SortedByOrder(r)
    ensures multiset(r) == multiset(bs)
  {
    if |bs| == 0 then []
    else
      assert bs == [bs[0]] + bs[1..];
      InsertByOrder(bs[0], SortByOrder(bs[1..]))
  }

  /** The sort is stable: the blocks of every order keep their list order. */
  lemma {:induction false} SortByOrderStable(bs: seq<Block>, v: int)
    ensures OfOrder(SortByOrder(bs), v) == OfOrder(bs, v)
    decreases |bs|
  {
    if |bs| > 0 {
      SortByOrderStable(bs[1..], v);
      InsertByOrderStable(bs[0], SortByOrder(bs[1..]), v);
      OfOrderCons(bs[0], bs[1..], v);
      assert bs == [bs[0]] + bs[1..];
    }
  }

  /** A sorted sequence is determined by its order classes: two sorted
      sequences that list the blocks of every order the same way are equal. */
  lemma {:induction false} StableSortUnique(s: seq<Block>, t: seq<Block>)
    requires SortedByOrder(s) && SortedByOrder(t)
    requires forall v :: OfOrder(s, v) == OfOrder(t, v)
    ensures s == t
    decreases |s| + |t|
  {
    if |s| == 0 && |t| > 0 {
      OfOrderHead(t);
    } else if |t| == 0 && |s| > 0 {
      OfOrderHead(s);
    } else if |s| > 0 {
      var v := Order(s[0]);
      var w := Order(t[0]);
      assert OfOrder(s, v)[0] == s[0];
      OfOrderMember(t, v);
      OfOrderMember(s, w);
      assert OfOrder(t, w)[0] == t[0];
      assert v == w;
      assert s[0] == t[0];
      forall u
        ensures OfOrder(s[1..], u) == OfOrder(t[1..], u)
      {
        assert s == [s[0]] + s[1..] && t == [t[0]] + t[1..];
        OfOrderCons(s[0], s[1..], u);
        OfOrderCons(t[0], t[1..], u);
        var pre := if v == u then [s[0]] else [];
        assert OfOrder(s, u) == pre + OfOrder(s[1..], u);
        assert OfOrder(t, u) == pre + OfOrder(t[1..], u);
        assert OfOrder(s[1..], u) == OfOrder(s, u)[|pre|..];
        assert OfOrder(t[1..], u) == OfOrder(t, u)[|pre|..];
      }
      StableSortUnique(s[1..], t[1..]);
      assert s == [s[0]] + s[1..] && t == [t[0]] + t[1..];
    }
  }

  /** The head of a list belongs to its own order class. */
  lemma OfOrderHead(s: seq<Block>)
    requires |s| > 0
    ensures OfOrder(s, Order(s[0])) != []
  {
  }

  /** Every block of a non-empty order class of a sorted sequence has an
      order no smaller than its head's. */
  lemma {:induction false} OfOrderMember(s: seq<Block>, v: int)
    requires SortedByOrder(s) && |s| > 0
    requires OfOrder(s, v) != []
    ensures Order(s[0]) <= v
    decreases |s|
  {
    if Order(s[0]) != v {
      assert OfOrder(s, v) == OfOrder(s[1..], v);
      assert |s| > 1;
      OfOrderMember(s[1..], v);
    }
  }

  /** Sorting an already sorted list changes nothing. */
  lemma SortedKept(bs: seq<Block>)
    requires SortedByOrder(bs)
    ensures SortByOrder(bs) == bs
  {
    forall v
      ensures OfOrder(SortByOrder(bs), v) == OfOrder(bs, v)
    {
      SortByOrderStable(bs, v);
    }
    StableSortUnique(SortByOrder(bs), bs);
  }

  // ---------------------------------------------------------------------------
  // Rendering and ticks
  // ---------------------------------------------------------------------------

  function ContentOf(b: Block): string {
    b.content
  }

  /** The bar: every block's content, concatenated in ascending order. */
  function Render(bs: seq<Block>): (r: string)
    ensures r == Concat(MapSeq(ContentOf, SortByOrder(bs)))
  {
    var contents := MapSeq(ContentOf, SortByOrder(bs));
    JoinWithoutSeparator(contents);
    Join("", contents)
  }

  /** A list already sorted by order renders as its contents in list order. */
  lemma RenderSorted(bs: seq<Block>)
    requires SortedByOrder(bs)
    ensures Render(bs) == Concat(MapSeq(ContentOf, bs))
  {
    SortedKept(bs);
  }

  /** The bar depends only on how each order class is listed: lists that
      interleave their classes differently render the same bar. */
  lemma RenderDependsOnOrderClasses(a: seq<Block>, b: seq<Block>)
    requires forall v :: OfOrder(a, v) == OfOrder(b, v)
    ensures Render(a) == Render(b)
  {
    forall v
      ensures OfOrder(SortByOrder(a), v) == OfOrder(SortByOrder(b), v)
    {
      SortByOrderStable(a, v);
      SortByOrderStable(b, v);
    }
    StableSortUnique(SortByOrder(a), SortByOrder(b));
  }

  /** What one tick does: the bar it shows (if any) and the bar it
      remembers. */
  datatype Tick = Tick(shown: Option<string>, bar: string)

  /** One iteration of `PollBlocks` with the last shown bar `bar`. */
  function PollTick(bs: seq<Block>, bar: string): (r: Tick)
    ensures r.bar == Render(bs)
    ensures r.shown.Some? <==> Render(bs) != bar
    ensures r.shown.Some? ==> r.shown.value == Render(bs)
  {
    var newBar := Render(bs);
    if newBar != bar then Tick(Some(newBar), newBar) else Tick(None, bar)
  }

  /** Nothing changed, nothing shown: a second tick over the same blocks is
      silent. */
  lemma SecondTickSilent(bs: seq<Block>, bar: string)
    ensures PollTick(bs, PollTick(bs, bar).bar).shown.None?
  {
  }

  /** What a run of ticks shows, one list of blocks per tick, and the bar it
      ends with. */
  datatype Run = Run(shown: seq<string>, bar: string)

  /** A run of ticks starting from the remembered bar `bar`: it never shows
      the same bar twice in a row, never starts by repeating `bar`, and the
      last bar it shows is the one it remembers. */
  function PollRun(frames: seq<seq<Block>>, bar: string): (r: Run)
    ensures forall i :: 0 <= i < |r.shown| - 1 ==> r.shown[i] != r.shown[i + 1]
    ensures |r.shown| > 0 ==> r.shown[0] != bar && r.shown[|r.shown| - 1] == r.bar
    ensures |r.shown| == 0 ==> r.bar == bar
    ensures |r.shown| <= |frames|
    decreases |frames|
  {
    if |frames| == 0 then Run([], bar)
    else
      var t := PollTick(frames[0], bar);
      var rest := PollRun(frames[1..], t.bar);
      if t.shown.Some? then
        var r := Run([t.shown.value] + rest.shown, rest.bar);
        assert forall i :: 0 <= i < |rest.shown| ==> r.shown[i + 1] == rest.shown[i];
        r
      else rest
  }

  /** The run `r` followed by the tick `u`. */
  function Append(r: Run, u: Tick): Run {
    Run(r.shown + (if u.shown.Some? then [u.shown.value] else []), u.bar)
  }

  /** The run `r` followed by one more tick over `f`. */
  function Extend(r: Run, f: seq<Block>): Run {
    Append(r, PollTick(f, r.bar))
  }

  /** The tick `t` followed by the run `rest`. */
  function Prepend(t: Tick, rest: Run): Run {
    if t.shown.Some? then Run([t.shown.value] + rest.shown, rest.bar) else rest
  }

  /** A non-empty run is its first tick followed by the rest of the run. */
  lemma PollRunCons(frames: seq<seq<Block>>, bar: string)
    requires |frames| > 0
    ensures var t := PollTick(frames[0], bar);
            PollRun(frames, bar) == Prepend(t, PollRun(frames[1..], t.bar))
  {
  }

  /** Adding a tick in front and one at the end commute. */
  lemma PrependAppend(t: Tick, rest: Run, u: Tick)
    ensures Prepend(t, Append(rest, u)) == Append(Prepend(t, rest), u)
  {
    if t.shown.Some? {
      var tail := if u.shown.Some? then [u.shown.value] else [];
      assert [t.shown.value] + (rest.shown + tail) == ([t.shown.value] + rest.shown) + tail;
    }
  }

  /** One more tick at the end of a run shows its render exactly when that
      render differs from the bar the run remembers: every change is shown,
      in the order it happens. */
  lemma {:induction false} PollRunSnoc(frames: seq<seq<Block>>, f: seq<Block>, bar: string)
    ensures PollRun(frames + [f], bar) == Extend(PollRun(frames, bar), f)
    decreases |frames|
  {
    var xs := frames + [f];
    if |frames| == 0 {
      assert xs == [f];
      PollRunCons(xs, bar);
      assert xs[1..] == [];
    } else {
      var t := PollTick(frames[0], bar);
      assert xs[0] == frames[0];
      assert xs[1..] == frames[1..] + [f];
      PollRunCons(xs, bar);
      PollRunCons(frames, bar);
      PollRunSnoc(frames[1..], f, t.bar);
      var rest := PollRun(frames[1..], t.bar);
      assert Prepend(t, rest).bar == rest.bar;
      PrependAppend(t, rest, PollTick(f, rest.bar));
    }
  }

  /** Every tick whose render differs from the remembered bar is shown, and
      every other tick shows nothing. */
  lemma PollRunShowsChange(frames: seq<seq<Block>>, f: seq<Block>, bar: string)
    ensures var r, r' := PollRun(frames, bar), PollRun(frames + [f], bar);
            && r'.bar == Render(f)
            && (Render(f) != r.bar ==> r'.shown == r.shown + [Render(f)])
            && (Render(f) == r.bar ==> r'.shown == r.shown)
  {
    PollRunSnoc(frames, f, bar);
    var r := PollRun(frames, bar);
    if Render(f) == r.bar {
      assert r.shown + [] == r.shown;
    }
  }

  /** After a non-empty run the remembered bar is the render of the last
      tick's blocks, whatever was shown before. */
  lemma {:induction false} PollRunEndsOnLastFrame(frames: seq<seq<Block>>, bar: string)
    requires |frames| > 0
    ensures PollRun(frames, bar).bar == Render(frames[|frames| - 1])
    decreases |frames|
  {
    var t := PollTick(frames[0], bar);
    if |frames| > 1 {
      PollRunEndsOnLastFrame(frames[1..], t.bar);
      assert frames[1..][|frames| - 2] == frames[|frames| - 1];
    }
  }

  /** The loop starts from the empty bar: a first tick over blocks that all
      have empty content shows nothing. */
  lemma EmptyBarNotShown(bs: seq<Block>)
    requires forall i :: 0 <= i < |bs| ==> bs[i].content == ""
    ensures PollTick(bs, "").shown.None?
  {
    var sorted := SortByOrder(bs);
    forall i | 0 <= i < |sorted|
      ensures sorted[i].content == ""
    {
      assert sorted[i] in multiset(bs);
    }
    JoinOfEmpty(MapSeq(ContentOf, sorted));
  }

  lemma {:induction false} JoinOfEmpty(xs: seq<string>)
    requires forall i :: 0 <= i < |xs| ==> xs[i] == ""
    ensures Join("", xs) == ""
    decreases |xs|
  {
    if |xs| > 1 {
      JoinOfEmpty(xs[1..]);
    }
  }
}

=== FILE: registry.dfy ===
/** The service's list of live blocks and how configuration sections reach
    it: a section of a known type updates the matching block of its kind or
    appends a new one; a change notification re-applies every section unless
    its snapshot equals the last one. Blocks are never removed or reordered. */
module Registry {
  import opened Options
  import opened Strings
  import opened Config
  import opened Blocks
  import opened Snapshot

  // ---------------------------------------------------------------------------
  // Lookup
  // ---------------------------------------------------------------------------

  /** The lookup `CreateOrUpdate` performs: a block of the kind with the
      settings' identity, or any block of the kind when that identity is
      empty. */
  predicate Matches(b: Block, k: Kind, id: string) {
    KindOf(b) == k && (id == "" || Id(b) == id)
  }

  /** `Where(...).FirstOrDefault()`: the position of the first matching
      block, if any. */
  function FindMatch(bs: seq<Block>, k: Kind, id: string): (r: Option<nat>)
    ensures r.Some? ==> r.value < |bs| && Matches(bs[r.value], k, id)
    ensures r.Some? ==> forall j :: 0 <= j < r.value ==> !Matches(bs[j], k, id)
    ensures r.None? ==> forall j :: 0 <= j < |bs| ==> !Matches(bs[j], k, id)
  {
    FindMatchFrom(bs, k, id, 0)
  }

  function FindMatchFrom(bs: seq<Block>, k: Kind, id: string, start: nat): (r: Option<nat>)
    ensures r.Some? ==> start <= r.value < |bs| && Matches(bs[r.value], k, id)
    ensures r.Some? ==> forall j :: start <= j < r.value ==> !Matches(bs[j], k, id)
    ensures r.None? ==> forall j :: start <= j < |bs| ==> !Matches(bs[j], k, id)
    decreases |bs| - start
  {
    if start >= |bs| then None
    else if Matches(bs[start], k, id) then Some(start)
    else FindMatchFrom(bs, k, id, start + 1)
  }

  // ---------------------------------------------------------------------------
  // Create or update
  // ---------------------------------------------------------------------------

  /** `CreateOrUpdate<TBlock, TSettings>`: binds the section to the kind's
      settings; the first matching block takes them, and without one a new
      block is appended. */
  function CreateOrUpdate(bs: seq<Block>, k: Kind, section: Section): (r: seq<Block>)
    // no match: exactly one new block, built from the bound settings, at the end
    ensures var s := Bind(section, k);
            FindMatch(bs, k, s.base.id).None? ==> r == bs + [NewBlock(s)]
    // a match: that block alone takes the settings, keeping its content
    ensures var s := Bind(section, k);
            FindMatch(bs, k, s.base.id).Some? ==>
              var i := FindMatch(bs, k, s.base.id).value;
              && |r| == |bs| && r[i] == UpdateSettings(bs[i], s)
              && forall j :: 0 <= j < |bs| && j != i ==> r[j] == bs[j]
  {
    var s := Bind(section, k);
    match FindMatch(bs, k, s.base.id)
    case None => bs + [NewBlock(s)]
    case Some(i) => bs[i := UpdateSettings(bs[i], s)]
  }

  /** After `CreateOrUpdate` some block of the kind holds exactly the
      section's bound settings. */
  lemma SectionApplied(bs: seq<Block>, k: Kind, section: Section)
    ensures var r := CreateOrUpdate(bs, k, section);
            exists i :: 0 <= i < |r| && KindOf(r[i]) == k && r[i].settings == Bind(section, k)
  {
    var r := CreateOrUpdate(bs, k, section);
    var s := Bind(section, k);
    match FindMatch(bs, k, s.base.id)
    case None =>
      assert r[|bs|] == NewBlock(s);
    case Some(i) =>
      assert r[i] == UpdateSettings(bs[i], s);
  }

  /** The `switch` on a section's `Type`: an unknown type is logged and
      skipped. */
  function Dispatch(bs: seq<Block>, section: Section): (r: seq<Block>)
    ensures KindOfType(TypeOf(section)).None? ==> r == bs
    ensures KindOfType(TypeOf(section)).Some? ==> r == CreateOrUpdate(bs, KindOfType(TypeOf(section)).value, section)
  {
    match KindOfType(TypeOf(section))
    case None => bs
    case Some(k) => CreateOrUpdate(bs, k, section)
  }

  /** The `foreach` over the configured sections, in order: each section
      sees the blocks the earlier ones created. */
  function Reconcile(bs: seq<Block>, sections: seq<Section>): (r: seq<Block>)
    ensures |sections| == 0 ==> r == bs
    ensures Grows(bs, r)
    ensures |r| <= |bs| + |sections|
    decreases |sections|
  {
    if |sections| == 0 then bs
    else
      var next := Dispatch(bs, sections[0]);
      DispatchGrows(bs, sections[0]);
      var r := Reconcile(next, sections[1..]);
      GrowsTransitive(bs, next, r);
      r
  }

  /** The sections are applied one after the other: the last section sees
      the blocks all earlier ones left. */
  lemma {:induction false} ReconcileSnoc(bs: seq<Block>, ss: seq<Section>, s: Section)
    ensures Reconcile(bs, ss + [s]) == Dispatch(Reconcile(bs, ss), s)
    decreases |ss|
  {
    if |ss| == 0 {
      assert ss + [s] == [s];
    } else {
      assert (ss + [s])[1..] == ss[1..] + [s];
      ReconcileSnoc(Dispatch(bs, ss[0]), ss[1..], s);
    }
  }

  /** Reconciling a concatenation reconciles the second part on top of the
      first. */
  lemma {:induction false} ReconcileAppend(bs: seq<Block>, xs: seq<Section>, ys: seq<Section>)
    ensures Reconcile(bs, xs + ys) == Reconcile(Reconcile(bs, xs), ys)
    decreases |xs|
  {
    if |xs| == 0 {
      assert xs + ys == ys;
    } else {
      assert (xs + ys)[1..] == xs[1..] + ys;
      ReconcileAppend(Dispatch(bs, xs[0]), xs[1..], ys);
    }
  }

  /** After a section of a known type is applied, some block of its kind
      holds exactly its bound settings. */
  lemma ReconcileAppliesLast(bs: seq<Block>, ss: seq<Section>, s: Section, k: Kind)
    requires KindOfType(TypeOf(s)) == Some(k)
    ensures var r := Reconcile(bs, ss + [s]);
            exists i :: 0 <= i < |r| && KindOf(r[i]) == k && r[i].settings == Bind(s, k)
  {
    ReconcileSnoc(bs, ss, s);
    SectionApplied(Reconcile(bs, ss), k, s);
  }

  /** An entry of unknown type is skipped and the entries after it are still
      processed, exactly as if it were absent. */
  lemma UnknownTypeSkipped(bs: seq<Block>, pre: seq<Section>, s: Section, post: seq<Section>)
    requires KindOfType(TypeOf(s)).None?
    ensures Reconcile(bs, pre + [s] + post) == Reconcile(bs, pre + post)
  {
    ReconcileAppend(bs, pre + [s], post);
    ReconcileSnoc(bs, pre, s);
    ReconcileAppend(bs, pre, post);
  }

  /** A section without a `Type` entry is skipped like an unknown type. */
  lemma MissingTypeSkipped(bs: seq<Block>, pre: seq<Section>, s: Section, post: seq<Section>)
    requires s.typeTag.None?
    ensures Reconcile(bs, pre + [s] + post) == Reconcile(bs, pre + post)
  {
    UnknownTypeSkipped(bs, pre, s, post);
  }

  // ---------------------------------------------------------------------------
  // Blocks are kept
  // ---------------------------------------------------------------------------

  /** `y` is `x` after a settings update at most: same kind, same content and
      the same background and icon state. */
  predicate Kept(x: Block, y: Block) {
    KindOf(y) == KindOf(x) && y.content == x.content && y.bg == x.bg && y.icon == x.icon
  }

  /** Every block of `a` is still in `b`, at the same position, kept; new
      blocks only come after them. */
  predicate Grows(a: seq<Block>, b: seq<Block>) {
    |a| <= |b| && forall i :: 0 <= i < |a| ==> Kept(a[i], b[i])
  }

  lemma GrowsTransitive(a: seq<Block>, b: seq<Block>, c: seq<Block>)
    requires Grows(a, b) && Grows(b, c)
    ensures Grows(a, c)
  {
    forall i | 0 <= i < |a|
      ensures Kept(a[i], c[i])
    {
      assert Kept(a[i], b[i]) && Kept(b[i], c[i]);
    }
  }

  /** One section removes nothing, reorders nothing and adds at most one
      block. */
  lemma DispatchGrows(bs: seq<Block>, section: Section)
    ensures Grows(bs, Dispatch(bs, section))
    ensures |Dispatch(bs, section)| <= |bs| + 1
  {
    var r := Dispatch(bs, section);
    forall i | 0 <= i < |bs|
      ensures Kept(bs[i], r[i])
    {
    }
  }

  // ---------------------------------------------------------------------------
  // One block per kind and identity
  // ---------------------------------------------------------------------------

  /** Two blocks of the same kind never share an identity, and only the
      first block of a kind may have an empty one. */
  predicate IdsDistinctPerKind(bs: seq<Block>) {
    forall i, j :: 0 <= i < j < |bs| && KindOf(bs[i]) == KindOf(bs[j]) ==>
      Id(bs[j]) != "" && Id(bs[i]) != Id(bs[j])
  }

  /** `CreateOrUpdate` keeps identities distinct per kind: a new block is
      only created when nothing of its kind carries its identity, and an
      update either keeps the block's identity or clears the identity of the
      first block of the kind. */
  lemma CreateOrUpdateDistinct(bs: seq<Block>, k: Kind, section: Section)
    requires IdsDistinctPerKind(bs)
    ensures IdsDistinctPerKind(CreateOrUpdate(bs, k, section))
  {
    var s := Bind(section, k);
    var r := CreateOrUpdate(bs, k, section);
    match FindMatch(bs, k, s.base.id)
    case None =>
      forall i, j | 0 <= i < j < |r| && KindOf(r[i]) == KindOf(r[j])
        ensures Id(r[j]) != "" && Id(r[i]) != Id(r[j])
      {
        if j == |bs| {
          assert !Matches(bs[i], k, s.base.id);
        }
      }
    case Some(m) =>
      forall i, j | 0 <= i < j < |r| && KindOf(r[i]) == KindOf(r[j])
        ensures Id(r[j]) != "" && Id(r[i]) != Id(r[j])
      {
        if j == m {
          assert !Matches(bs[i], k, s.base.id);
        } else if i == m {
          assert KindOf(bs[m]) == KindOf(bs[j]);
        }
      }
  }

  lemma {:induction false} ReconcileDistinct(bs: seq<Block>, sections: seq<Section>)
    requires IdsDistinctPerKind(bs)
    ensures IdsDistinctPerKind(Reconcile(bs, sections))
    decreases |sections|
  {
    if |sections| > 0 {
      var next := Dispatch(bs, sections[0]);
      if KindOfType(TypeOf(sections[0])).Some? {
        CreateOrUpdateDistinct(bs, KindOfType(TypeOf(sections[0])).value, sections[0]);
      }
      ReconcileDistinct(next, sections[1..]);
    }
  }

  // ---------------------------------------------------------------------------
  // The service
  // ---------------------------------------------------------------------------

  /** The live blocks and the snapshot of the settings last applied. */
  datatype ServiceState = ServiceState(blocks: seq<Block>, lastSnapshot: string)

  /** The constructor records the snapshot of the initial settings and starts
      with no blocks; `ExecuteAsync` then applies every initial section. */
  function Start(settings: StatusbarSettings): (r: ServiceState)
    ensures r.lastSnapshot == CreateSettingsSnapshot(settings)
    ensures r.blocks == Reconcile([], settings.blocks)
    ensures |r.blocks| <= |settings.blocks|
    ensures IdsDistinctPerKind(r.blocks)
  {
    ReconcileDistinct([], settings.blocks);
    ServiceState(Reconcile([], settings.blocks), CreateSettingsSnapshot(settings))
  }

  /** `OnSettingsChanged`: settings whose snapshot equals the last one are
      ignored; otherwise the snapshot is recorded and every section is
      applied to the live blocks. */
  function OnSettingsChanged(st: ServiceState, newSettings: StatusbarSettings): (r: ServiceState)
    ensures r.lastSnapshot == CreateSettingsSnapshot(newSettings)
    ensures Grows(st.blocks, r.blocks)
    ensures st.lastSnapshot == CreateSettingsSnapshot(newSettings) ==> r == st
    ensures st.lastSnapshot != CreateSettingsSnapshot(newSettings) ==>
              r.blocks == Reconcile(st.blocks, newSettings.blocks)
  {
    var snapshot := CreateSettingsSnapshot(newSettings);
    if AreSettingsEqual(Some(st.lastSnapshot), Some(snapshot)) then st
    else ServiceState(Reconcile(st.blocks, newSettings.blocks), snapshot)
  }

  /** A notification whose snapshot differs applies the sections to the live
      blocks: after it, the last section, when of a known type, is held by a
      block of its kind. (An earlier section's settings may be overwritten by
      a later section matching the same block.) */
  lemma ChangedSettingsApplied(st: ServiceState, settings: StatusbarSettings, pre: seq<Section>, s: Section, k: Kind)
    requires st.lastSnapshot != CreateSettingsSnapshot(settings)
    requires settings.blocks == pre + [s] && KindOfType(TypeOf(s)) == Some(k)
    ensures var r := OnSettingsChanged(st, settings).blocks;
            exists i :: 0 <= i < |r| && KindOf(r[i]) == k && r[i].settings == Bind(s, k)
  {
    ReconcileAppliesLast(st.blocks, pre, s, k);
  }

  /** At start, the last initial section of a known type is held by a block
      of its kind. */
  lemma StartAppliesLast(settings: StatusbarSettings, pre: seq<Section>, s: Section, k: Kind)
    requires settings.blocks == pre + [s] && KindOfType(TypeOf(s)) == Some(k)
    ensures var r := Start(settings).blocks;
            exists i :: 0 <= i < |r| && KindOf(r[i]) == k && r[i].settings == Bind(s, k)
  {
    ReconcileAppliesLast([], pre, s, k);
  }

  /** Change notifications keep identities distinct per kind. */
  lemma OnSettingsChangedDistinct(st: ServiceState, newSettings: StatusbarSettings)
    requires IdsDistinctPerKind(st.blocks)
    ensures IdsDistinctPerKind(OnSettingsChanged(st, newSettings).blocks)
  {
    ReconcileDistinct(st.blocks, newSettings.blocks);
  }

  /** A repeated notification with the same settings changes nothing. */
  lemma RepeatedNotificationIgnored(st: ServiceState, settings: StatusbarSettings)
    ensures var once := OnSettingsChanged(st, settings);
            OnSettingsChanged(once, settings) == once
  {
  }

  /** The same sections and entries enumerated in another order are not a
      change: the notification is ignored. */
  lemma ReorderedSettingsIgnored(st: ServiceState, a: StatusbarSettings, b: StatusbarSettings)
    requires st.lastSnapshot == CreateSettingsSnapshot(a)
    requires a.pollInterval == b.pollInterval
    requires multiset(Sorting.MapSeq(PairBag, a.blocks)) == multiset(Sorting.MapSeq(PairBag, b.blocks))
    ensures OnSettingsChanged(st, b) == st
  {
    SnapshotOrderIndependent(a, b);
  }

  /** A notification that changes the poll interval is never ignored: its
      sections are applied. */
  lemma NewIntervalApplied(st: ServiceState, a: StatusbarSettings, b: StatusbarSettings)
    requires st.lastSnapshot == CreateSettingsSnapshot(a)
    requires a.pollInterval != b.pollInterval
    ensures OnSettingsChanged(st, b).blocks == Reconcile(st.blocks, b.blocks)
  {
    if st.lastSnapshot == CreateSettingsSnapshot(b) {
      SnapshotDeterminesPollInterval(a, b);
    }
  }

  /** A notification that edits an entry is never ignored, provided keys and
      values avoid the snapshot's separators and the number of sections
      stays the same: the edited sections are applied. */
  lemma EditedSettingsApplied(st: ServiceState, a: StatusbarSettings, b: StatusbarSettings)
    requires st.lastSnapshot == CreateSettingsSnapshot(a)
    requires |a.blocks| == |b.blocks|
    requires forall i :: 0 <= i < |a.blocks| ==> PlainSection(a.blocks[i])
    requires forall i :: 0 <= i < |b.blocks| ==> PlainSection(b.blocks[i])
    requires multiset(Sorting.MapSeq(BlockEntries, a.blocks)) != multiset(Sorting.MapSeq(BlockEntries, b.blocks))
    ensures OnSettingsChanged(st, b).blocks == Reconcile(st.blocks, b.blocks)
  {
    if st.lastSnapshot == CreateSettingsSnapshot(b) {
      SnapshotDeterminesEntries(a, b);
    }
  }
}

=== FILE: snapshot.dfy ===
/** The settings snapshot the service compares to decide whether a change
    notification brings anything new: every section rendered as its sorted
    `key=value` entries, the sections sorted, the poll interval in front. */
module Snapshot {
  import opened Options
  import opened Strings
  import opened Sorting
  import opened Config

  /** `$"{pair.Key}={pair.Value}"` for an entry that has a value. */
  function PairText(p: Pair): Option<string> {
    match p.value
    case None => None
    case Some(v) => Some(p.key + "=" + v)
  }

  /** The entries one section contributes, in the order they are joined. */
  function BlockEntries(section: Section): (r: seq<string>)
    ensures SortedStrings(r)
    ensures multiset(r) == multiset(FilterMap(PairText, section.pairs))
  {
    SortStrings(FilterMap(PairText, section.pairs))
  }

  /** `BlockToString`: a missing section renders as the empty string. */
  function BlockToString(section: Option<Section>): (r: string)
    ensures section.None? ==> r == ""
  {
    match section
    case None => ""
    case Some(s) => Join(",", BlockEntries(s))
  }

  /** What a section contributes to the snapshot depends only on the
      multiset of its entries, not on the order the configuration lists them
      in. */
  lemma BlockToStringPermutation(a: Section, b: Section)
    requires multiset(a.pairs) == multiset(b.pairs)
    ensures BlockToString(Some(a)) == BlockToString(Some(b))
  {
    FilterMapPermutation(PairText, a.pairs, b.pairs);
    SortStringsPermutationInvariant(FilterMap(PairText, a.pairs), FilterMap(PairText, b.pairs));
  }

  /** An entry without a value leaves no trace in the snapshot. */
  lemma NullPairIgnored(s: Section, pre: seq<Pair>, key: string, post: seq<Pair>)
    requires s.pairs == pre + [Pair(key, None)] + post
    ensures BlockToString(Some(s)) == BlockToString(Some(s.(pairs := pre + post)))
  {
    FilterMapAppend(PairText, pre + [Pair(key, None)], post);
    FilterMapAppend(PairText, pre, [Pair(key, None)]);
    FilterMapAppend(PairText, pre, post);
    assert FilterMap(PairText, [Pair(key, None)]) == [];
    assert FilterMap(PairText, s.pairs) == FilterMap(PairText, pre + post);
  }

  /** The snapshot does not tell every change apart: a value that itself
      contains a comma and a `key=value` text renders exactly like two
      separate entries, so replacing one by the other goes unnoticed (for
      instance `a` = `1,b=2` against `a` = `1` and `b` = `2`). */
  lemma SeparatorCollision(one: Section, two: Section, k1: string, v1: string, k2: string, v2: string)
    requires LexLe(k1 + "=" + v1, k2 + "=" + v2)
    requires one.pairs == [Pair(k1, Some(v1 + "," + k2 + "=" + v2))]
    requires two.pairs == [Pair(k1, Some(v1)), Pair(k2, Some(v2))]
    ensures one.pairs != two.pairs
    ensures BlockToString(Some(one)) == BlockToString(Some(two))
  {
    var e1, e2 := k1 + "=" + v1, k2 + "=" + v2;
    SinglePair(k1, v1 + "," + k2 + "=" + v2);
    assert k1 + "=" + (v1 + "," + k2 + "=" + v2) == e1 + "," + e2;
    SortedKept([e1 + "," + e2]);
    SinglePair(k1, v1);
    SinglePair(k2, v2);
    assert two.pairs == [two.pairs[0]] + [two.pairs[1]];
    FilterMapAppend(PairText, [two.pairs[0]], [two.pairs[1]]);
    SortedKept([e1, e2]);
    assert Join(",", [e1, e2]) == e1 + "," + Join(",", [e2]);
  }

  /** A sorted sequence sorts to itself. */
  lemma SortedKept(xs: seq<string>)
    requires SortedStrings(xs)
    ensures SortStrings(xs) == xs
  {
    SortedUnique(SortStrings(xs), xs);
  }

  lemma SinglePair(key: string, value: string)
    ensures FilterMap(PairText, [Pair(key, Some(value))]) == [key + "=" + value]
  {
    var ps := [Pair(key, Some(value))];
    assert PairText(ps[0]) == Some(key + "=" + value);
    assert ps[1..] == [];
  }

  /** The snapshot line of one configured section. */
  function SectionLine(s: Section): string {
    BlockToString(Some(s))
  }

  /** The multiset of a section's entries: everything its snapshot line
      depends on. */
  function PairBag(s: Section): multiset<Pair> {
    multiset(s.pairs)
  }

  /** `CreateSettingsSnapshot`: the poll interval in decimal, a bar, then the
      sorted section lines joined by semicolons. */
  function CreateSettingsSnapshot(st: StatusbarSettings): (r: string)
    ensures var n := IntToString(st.pollInterval);
            && |r| > |n| && r[..|n|] == n && r[|n|] == '|'
            && IndexOfChar(r, '|') == Some(|n|)
  {
    var n := IntToString(st.pollInterval);
    var r := n + "|" + Join(";", SortStrings(MapSeq(SectionLine, st.blocks)));
    NoBarInNumber(st.pollInterval);
    assert r[..|n|] == n;
    r
  }

  /** The decimal form of an integer has digits and at most a minus sign. */
  lemma NoBarInNumber(n: int)
    ensures '|' !in IntToString(n)
  {
    var s := IntToString(n);
    if n >= 0 {
      assert forall i :: 0 <= i < |s| ==> IsDigit(s[i]);
    } else {
      var t := s[1..];
      assert s == [s[0]] + t;
      assert forall i :: 0 <= i < |t| ==> IsDigit(t[i]);
    }
  }

  /** Equal snapshots mean equal poll intervals: the interval can be read
      back from the text before the first bar. */
  lemma SnapshotDeterminesPollInterval(a: StatusbarSettings, b: StatusbarSettings)
    requires CreateSettingsSnapshot(a) == CreateSettingsSnapshot(b)
    ensures a.pollInterval == b.pollInterval
  {
    var sa, sb := CreateSettingsSnapshot(a), CreateSettingsSnapshot(b);
    var na, nb := IntToString(a.pollInterval), IntToString(b.pollInterval);
    assert |na| == |nb|;
    assert na == sa[..|na|] == nb;
    SignedValueOfIntToString(a.pollInterval);
    SignedValueOfIntToString(b.pollInterval);
  }

  /** The snapshot forgets the order in which the sections, and the entries
      inside each, are enumerated: two configurations with the same poll
      interval whose sections hold the same entry multisets have the same
      snapshot. (Entry keys carry the section's path, so moving a section in
      the file changes its entries.) */
  lemma SnapshotOrderIndependent(a: StatusbarSettings, b: StatusbarSettings)
    requires a.pollInterval == b.pollInterval
    requires multiset(MapSeq(PairBag, a.blocks)) == multiset(MapSeq(PairBag, b.blocks))
    ensures CreateSettingsSnapshot(a) == CreateSettingsSnapshot(b)
  {
    forall x: Section, y: Section | PairBag(x) == PairBag(y)
      ensures SectionLine(x) == SectionLine(y)
    {
      BlockToStringPermutation(x, y);
    }
    MapSeqPermutationBy(SectionLine, PairBag, a.blocks, b.blocks);
    SortStringsPermutationInvariant(MapSeq(SectionLine, a.blocks), MapSeq(SectionLine, b.blocks));
  }

  // ---------------------------------------------------------------------------
  // What reaches the snapshot
  // ---------------------------------------------------------------------------

  /** Every entry that has a value reaches its section's line as
      `key=value`. */
  lemma PairReachesLine(s: Section, i: nat)
    requires i < |s.pairs| && s.pairs[i].value.Some?
    ensures IsInfix(s.pairs[i].key + "=" + s.pairs[i].value.value, SectionLine(s))
  {
    var p := s.pairs[i];
    var e := p.key + "=" + p.value.value;
    assert s.pairs == s.pairs[..i] + [p] + s.pairs[i + 1..];
    FilterMapSplit(PairText, s.pairs[..i], p, s.pairs[i + 1..]);
    SinglePair(p.key, p.value.value);
    assert [p] == [Pair(p.key, Some(p.value.value))];
    var entries := BlockEntries(s);
    assert e in multiset(entries);
    var j :| 0 <= j < |entries| && entries[j] == e;
    JoinPartInfix(",", entries, j);
  }

  /** Every section's line reaches the snapshot, behind the first bar. */
  lemma SectionReachesSnapshot(st: StatusbarSettings, i: nat)
    requires i < |st.blocks|
    ensures var n := |IntToString(st.pollInterval)|;
            IsInfix(SectionLine(st.blocks[i]), CreateSettingsSnapshot(st)[n + 1..])
  {
    var n := IntToString(st.pollInterval);
    var sorted := SortStrings(MapSeq(SectionLine, st.blocks));
    assert CreateSettingsSnapshot(st)[|n| + 1..] == Join(";", sorted);
    assert SectionLine(st.blocks[i]) in multiset(sorted);
    var j :| 0 <= j < |sorted| && sorted[j] == SectionLine(st.blocks[i]);
    JoinPartInfix(";", sorted, j);
  }

  /** Hence every entry with a value, of every section, reaches the
      snapshot behind the first bar. */
  lemma PairReachesSnapshot(st: StatusbarSettings, i: nat, j: nat)
    requires i < |st.blocks| && j < |st.blocks[i].pairs| && st.blocks[i].pairs[j].value.Some?
    ensures var p, n := st.blocks[i].pairs[j], |IntToString(st.pollInterval)|;
            IsInfix(p.key + "=" + p.value.value, CreateSettingsSnapshot(st)[n + 1..])
  {
    var p := st.blocks[i].pairs[j];
    PairReachesLine(st.blocks[i], j);
    SectionReachesSnapshot(st, i);
    InfixTransitive(p.key + "=" + p.value.value, SectionLine(st.blocks[i]),
                    CreateSettingsSnapshot(st)[|IntToString(st.pollInterval)| + 1..]);
  }

  /** Text without the snapshot's two separators. */
  predicate PlainText(t: string) {
    ',' !in t && ';' !in t
  }

  /** A section whose keys and values avoid the separators. */
  predicate PlainSection(s: Section) {
    forall p :: p in s.pairs ==> PlainText(p.key) && (p.value.Some? ==> PlainText(p.value.value))
  }

  /** The entries of a plain section are non-empty and plain. */
  lemma PlainEntries(s: Section, e: string)
    requires PlainSection(s) && e in BlockEntries(s)
    ensures e != "" && PlainText(e)
  {
    assert e in multiset(FilterMap(PairText, s.pairs));
    FilterMapMember(PairText, s.pairs, e);
    var p :| p in s.pairs && PairText(p) == Some(e);
    assert e == p.key + "=" + p.value.value;
    assert e[|p.key|] == '=';
  }

  /** The line of a plain section has no `;`, and the line gives back the
      sorted entries. */
  lemma PlainLine(s: Section)
    requires PlainSection(s)
    ensures ';' !in SectionLine(s)
  {
    var entries := BlockEntries(s);
    forall i | 0 <= i < |entries|
      ensures ';' !in entries[i]
    {
      PlainEntries(s, entries[i]);
    }
    JoinAvoids(",", entries, ';');
  }

  /** Two plain sections with the same line have the same sorted entries. */
  lemma PlainLineInjective(x: Section, y: Section)
    requires PlainSection(x) && PlainSection(y)
    requires SectionLine(x) == SectionLine(y)
    ensures BlockEntries(x) == BlockEntries(y)
  {
    var ex, ey := BlockEntries(x), BlockEntries(y);
    forall i | 0 <= i < |ex|
      ensures ',' !in ex[i] && ex[i] != ""
    {
      PlainEntries(x, ex[i]);
    }
    forall i | 0 <= i < |ey|
      ensures ',' !in ey[i] && ey[i] != ""
    {
      PlainEntries(y, ey[i]);
    }
    JoinInjective(',', ex, ey);
  }

  /** A limited converse of `SnapshotOrderIndependent`: when no key or value
      contains `,` or `;` and both configurations have as many sections,
      equal snapshots mean the same poll interval and the same sorted entry
      lists, section for section up to order. So with such values every
      edit of an entry changes the snapshot. */
  lemma SnapshotDeterminesEntries(a: StatusbarSettings, b: StatusbarSettings)
    requires |a.blocks| == |b.blocks|
    requires forall i :: 0 <= i < |a.blocks| ==> PlainSection(a.blocks[i])
    requires forall i :: 0 <= i < |b.blocks| ==> PlainSection(b.blocks[i])
    requires CreateSettingsSnapshot(a) == CreateSettingsSnapshot(b)
    ensures a.pollInterval == b.pollInterval
    ensures multiset(MapSeq(BlockEntries, a.blocks)) == multiset(MapSeq(BlockEntries, b.blocks))
  {
    SnapshotDeterminesPollInterval(a, b);
    var n := IntToString(a.pollInterval);
    var sa, sb := SortedLines(a), SortedLines(b);
    SnapshotTail(a);
    SnapshotTail(b);
    SortedLinesPlain(a);
    SortedLinesPlain(b);
    JoinInjective(';', sa, sb);
    SameLinesSameEntries(a.blocks, b.blocks);
  }

  /** The section lines in the order the snapshot lists them. */
  function SortedLines(st: StatusbarSettings): seq<string> {
    SortStrings(MapSeq(SectionLine, st.blocks))
  }

  /** Behind the first bar, the snapshot is the sorted lines joined by `;`. */
  lemma SnapshotTail(st: StatusbarSettings)
    ensures var n := IntToString(st.pollInterval);
            CreateSettingsSnapshot(st)[|n| + 1..] == Join(";", SortedLines(st))
  {
  }

  /** The sorted lines of plain sections are one per section and have no
      `;`. */
  lemma SortedLinesPlain(st: StatusbarSettings)
    requires forall i :: 0 <= i < |st.blocks| ==> PlainSection(st.blocks[i])
    ensures |SortedLines(st)| == |st.blocks|
    ensures forall i :: 0 <= i < |SortedLines(st)| ==> ';' !in SortedLines(st)[i]
  {
    var lines, sorted := MapSeq(SectionLine, st.blocks), SortedLines(st);
    assert |sorted| == |multiset(sorted)| == |lines|;
    forall i | 0 <= i < |sorted|
      ensures ';' !in sorted[i]
    {
      assert sorted[i] in multiset(lines);
      var k :| 0 <= k < |lines| && lines[k] == sorted[i];
      PlainLine(st.blocks[k]);
    }
  }

  /** Plain sections whose lines are permutations of each other have sorted
      entry lists that are permutations of each other. */
  lemma SameLinesSameEntries(xs: seq<Section>, ys: seq<Section>)
    requires forall i :: 0 <= i < |xs| ==> PlainSection(xs[i])
    requires forall i :: 0 <= i < |ys| ==> PlainSection(ys[i])
    requires SortStrings(MapSeq(SectionLine, xs)) == SortStrings(MapSeq(SectionLine, ys))
    ensures multiset(MapSeq(BlockEntries, xs)) == multiset(MapSeq(BlockEntries, ys))
  {
    forall x | x in xs + ys
      ensures PlainSection(x)
    {
      if x in xs {
        var i :| 0 <= i < |xs| && xs[i] == x;
      } else {
        var i :| 0 <= i < |ys| && ys[i] == x;
      }
    }
    forall x, y | x in xs && y in ys && SectionLine(x) == SectionLine(y)
      ensures BlockEntries(x) == BlockEntries(y)
    {
      PlainLineInjective(x, y);
    }
    var lx, ly := MapSeq(SectionLine, xs), MapSeq(SectionLine, ys);
    assert multiset(lx) == multiset(SortStrings(lx)) == multiset(SortStrings(ly)) == multiset(ly);
    MapSeqPermutationBy(BlockEntries, SectionLine, xs, ys);
  }

  /** `AreSettingsEqual`: reference-or-value equality first, then a null
      check, then value equality; altogether, plain equality. */
  function AreSettingsEqual(a: Option<string>, b: Option<string>): (r: bool)
    ensures r <==> a == b
  {
    if a == b then true
    else if a.None? || b.None? then false
    else a.value == b.value
  }
}

=== FILE: sorting.dfy ===
/** `Select`, `Where` and `OrderBy(x => x)` over sequences of strings, with the
    facts the settings snapshot needs: sorting is determined by the multiset of
    its input, and mapping respects permutations. */
module Sorting {
  import opened Options
  import opened Strings

  // ---------------------------------------------------------------------------
  // Select and Where/Select
  // ---------------------------------------------------------------------------

  /** `xs.Select(f)`. */
  function MapSeq<A, B>(f: A -> B, xs: seq<A>): (r: seq<B>)
    ensures |r| == |xs|
    ensures forall i :: 0 <= i < |xs| ==> r[i] == f(xs[i])
  {
    seq(|xs|, i requires 0 <= i < |xs| => f(xs[i]))
  }

  /** `xs.Where(x => f(x) != null).Select(x => f(x))`: keeps the defined
      results of `f`, in order. */
  function FilterMap<A, B>(f: A -> Option<B>, xs: seq<A>): seq<B> {
    if |xs| == 0 then []
    else (if f(xs[0]).Some? then [f(xs[0]).value] else []) + FilterMap(f, xs[1..])
  }

  lemma {:induction false} FilterMapAppend<A, B>(f: A -> Option<B>, xs: seq<A>, ys: seq<A>)
    ensures FilterMap(f, xs + ys) == FilterMap(f, xs) + FilterMap(f, ys)
    decreases |xs|
  {
    if |xs| == 0 {
      assert xs + ys == ys;
    } else {
      var zs := xs + ys;
      assert zs[0] == xs[0] && zs[1..] == xs[1..] + ys;
      FilterMapAppend(f, xs[1..], ys);
      var head := if f(xs[0]).Some? then [f(xs[0]).value] else [];
      assert FilterMap(f, zs) == head + FilterMap(f, zs[1..]);
      assert FilterMap(f, xs) == head + FilterMap(f, xs[1..]);
    }
  }

  /** Everything `FilterMap` yields is the defined result of `f` on some
      element. */
  lemma {:induction false} FilterMapMember<A, B>(f: A -> Option<B>, xs: seq<A>, y: B)
    requires y in FilterMap(f, xs)
    ensures exists x :: x in xs && f(x) == Some(y)
    decreases |xs|
  {
    if f(xs[0]) != Some(y) {
      FilterMapMember(f, xs[1..], y);
      var x :| x in xs[1..] && f(x) == Some(y);
      assert x in xs;
    }
  }

  /** Removing the element at `k` takes exactly that element out of the
      multiset. */
  lemma RemoveAt<A>(ys: seq<A>, k: nat)
    requires k < |ys|
    ensures ys == ys[..k] + [ys[k]] + ys[k + 1..]
    ensures multiset(ys) == multiset(ys[..k] + ys[k + 1..]) + multiset{ys[k]}
  {
    assert ys == ys[..k] + [ys[k]] + ys[k + 1..];
  }

  lemma MultisetCancel<A>(a: multiset<A>, b: multiset<A>, x: A)
    requires a + multiset{x} == b + multiset{x}
    ensures a == b
  {
    assert forall e :: a[e] == (a + multiset{x})[e] - multiset{x}[e];
  }

  /** Filtering and mapping a permutation gives a permutation. */
  lemma {:induction false} FilterMapPermutation<A, B>(f: A -> Option<B>, xs: seq<A>, ys: seq<A>)
    requires multiset(xs) == multiset(ys)
    ensures multiset(FilterMap(f, xs)) == multiset(FilterMap(f, ys))
    decreases |xs|
  {
    if |xs| == 0 {
      assert |ys| == |multiset(ys)| == 0;
    } else {
      var x := xs[0];
      assert x in multiset(xs);
      assert x in ys;
      var k :| 0 <= k < |ys| && ys[k] == x;
      var rest := ys[..k] + ys[k + 1..];
      RemovedRest(xs, ys, k);
      FilterMapPermutation(f, xs[1..], rest);
      FilterMapSplit(f, ys[..k], x, ys[k + 1..]);
      assert ys[..k] + [x] + ys[k + 1..] == ys;
      FilterMapSplit(f, [], x, xs[1..]);
      assert [] + [x] + xs[1..] == xs;
      assert [] + xs[1..] == xs[1..];
    }
  }

  /** Taking the head of `xs` out of its occurrence at `k` in `ys` leaves
      permutations of each other. */
  lemma RemovedRest<A>(xs: seq<A>, ys: seq<A>, k: nat)
    requires multiset(xs) == multiset(ys)
    requires |xs| > 0 && k < |ys| && ys[k] == xs[0]
    ensures multiset(ys[..k] + ys[k + 1..]) == multiset(xs[1..])
  {
    RemoveAt(ys, k);
    assert xs == [xs[0]] + xs[1..];
    assert multiset(xs) == multiset(xs[1..]) + multiset{xs[0]};
    MultisetCancel(multiset(ys[..k] + ys[k + 1..]), multiset(xs[1..]), xs[0]);
  }

  /** Filtering `pre + [x] + post` contributes exactly `x`'s image beyond
      filtering `pre + post`. */
  lemma FilterMapSplit<A, B>(f: A -> Option<B>, pre: seq<A>, x: A, post: seq<A>)
    ensures multiset(FilterMap(f, pre + [x] + post))
         == multiset(FilterMap(f, pre + post)) + multiset(FilterMap(f, [x]))
  {
    FilterMapAppend(f, pre + [x], post);
    FilterMapAppend(f, pre, [x]);
    FilterMapAppend(f, pre, post);
  }

  /** Mapping two sequences whose `key` images are permutations of each other
      gives permutations, provided `f` only depends on `key`. */
  lemma {:induction false} MapSeqPermutationBy<A, K, B>(f: A -> B, key: A -> K, xs: seq<A>, ys: seq<A>)
    requires multiset(MapSeq(key, xs)) == multiset(MapSeq(key, ys))
    requires forall a, b :: a in xs && b in ys && key(a) == key(b) ==> f(a) == f(b)
    ensures multiset(MapSeq(f, xs)) == multiset(MapSeq(f, ys))
    decreases |xs|
  {
    var kx, ky := MapSeq(key, xs), MapSeq(key, ys);
    if |xs| == 0 {
      assert |ys| == |ky| == |multiset(ky)| == 0;
    } else {
      assert kx[0] in multiset(kx);
      assert kx[0] in ky;
      var k :| 0 <= k < |ky| && ky[k] == kx[0];
      var rest := ys[..k] + ys[k + 1..];
      MapSeqRemove(key, ys, k);
      RemovedRest(kx, ky, k);
      MapSeqHead(key, xs);
      FewerMembers(xs, ys, k);
      MapSeqPermutationBy(f, key, xs[1..], rest);
      assert f(ys[k]) == f(xs[0]);
      MatchedHeads(f, xs, ys, k);
    }
  }

  /** Matching the head of `xs` with the element at `k` of `ys`: if the rests
      map to permutations and the two elements map alike, so do the whole
      sequences. */
  lemma MatchedHeads<A, B>(f: A -> B, xs: seq<A>, ys: seq<A>, k: nat)
    requires |xs| > 0 && k < |ys| && f(ys[k]) == f(xs[0])
    requires multiset(MapSeq(f, xs[1..])) == multiset(MapSeq(f, ys[..k] + ys[k + 1..]))
    ensures multiset(MapSeq(f, xs)) == multiset(MapSeq(f, ys))
  {
    var fy := MapSeq(f, ys);
    MapSeqRemove(f, ys, k);
    RemoveAt(fy, k);
    MapSeqHead(f, xs);
    assert multiset(MapSeq(f, xs)) == multiset(MapSeq(f, xs[1..])) + multiset{f(xs[0])};
  }

  /** Dropping the head of `xs` and the element at `k` of `ys` keeps only
      members of each. */
  lemma FewerMembers<A>(xs: seq<A>, ys: seq<A>, k: nat)
    requires |xs| > 0 && k < |ys|
    ensures forall a :: a in xs[1..] ==> a in xs
    ensures forall a :: a in ys[..k] + ys[k + 1..] ==> a in ys
  {
    forall a | a in ys[..k] + ys[k + 1..]
      ensures a in ys
    {
      assert a in ys[..k] || a in ys[k + 1..];
    }
  }

  lemma MapSeqHead<A, B>(f: A -> B, xs: seq<A>)
    requires |xs| > 0
    ensures MapSeq(f, xs) == [f(xs[0])] + MapSeq(f, xs[1..])
  {
  }

  lemma MapSeqRemove<A, B>(f: A -> B, ys: seq<A>, k: nat)
    requires k < |ys|
    ensures MapSeq(f, ys[..k] + ys[k + 1..]) == MapSeq(f, ys)[..k] + MapSeq(f, ys)[k + 1..]
  {
  }

  // ---------------------------------------------------------------------------
  // String sort by scalar-value order
  // ---------------------------------------------------------------------------

  predicate SortedStrings(s: seq<string>) {
    forall i, j :: 0 <= i < j < |s| ==> LexLe(s[i], s[j])
  }

  /** Inserts `x` into the sorted `s` before the first element it does not
      exceed. */
  function InsertString(x: string, s: seq<string>): (r: seq<string>)
    requires SortedStrings(s)
    ensures SortedStrings(r)
    ensures multiset(r) == multiset(s) + multiset{x}
  {
    if |s| == 0 then [x]
    else if LexLe(x, s[0]) then
      InsertFirstSorted(x, s);
      [x] + s
    else
      var rest := InsertString(x, s[1..]);
      LexLeTotal(x, s[0]);
      assert s == [s[0]] + s[1..];
      InsertFirstSorted(s[0], rest);
      [s[0]] + rest
  }

  /** Putting an element no greater than the head of a sorted sequence in front
      keeps it sorted; so does putting a lower bound of every element. */
  lemma InsertFirstSorted(x: string, s: seq<string>)
    requires SortedStrings(s)
    requires |s| > 0 ==> LexLe(x, s[0]) || forall e :: e in s ==> LexLe(x, e)
    ensures SortedStrings([x] + s)
  {
    var r := [x] + s;
    forall i, j | 0 <= i < j < |r|
      ensures LexLe(r[i], r[j])
    {
      if i == 0 && !(forall e :: e in s ==> LexLe(x, e)) {
        if j > 1 {
          LexLeTransitive(x, s[0], s[j - 1]);
        }
      }
    }
  }

  /** `xs.OrderBy(x => x)` under the scalar-value order: an insertion sort. */
  function SortStrings(xs: seq<string>): (r: seq<string>)
    ensures SortedStrings(r)
    ensures multiset(r) == multiset(xs)
  {
    if |xs| == 0 then []
    else
      assert xs == [xs[0]] + xs[1..];
      InsertString(xs[0], SortStrings(xs[1..]))
  }

  /** Two sorted sequences with the same elements are equal. */
  lemma {:induction false} SortedUnique(s: seq<string>, t: seq<string>)
    requires SortedStrings(s) && SortedStrings(t)
    requires multiset(s) == multiset(t)
    ensures s == t
    decreases |s|
  {
    if |s| == 0 {
      assert |t| == |multiset(t)| == 0;
    } else {
      assert |t| == |multiset(t)| == |s|;
      SortedSameHead(s, t);
      SameTails(s, t);
      SortedUnique(s[1..], t[1..]);
      assert s == [s[0]] + s[1..] && t == [t[0]] + t[1..];
    }
  }

  /** Two non-empty sorted sequences with the same elements start alike. */
  lemma SortedSameHead(s: seq<string>, t: seq<string>)
    requires SortedStrings(s) && SortedStrings(t)
    requires multiset(s) == multiset(t) && |s| > 0 && |t| > 0
    ensures s[0] == t[0]
  {
    assert s[0] in multiset(t) && t[0] in multiset(s);
    var i :| 0 <= i < |t| && t[i] == s[0];
    var j :| 0 <= j < |s| && s[j] == t[0];
    assert LexLe(t[0], s[0]) by {
      if i > 0 { assert LexLe(t[0], t[i]); } else { LexLeReflexive(s[0]); }
    }
    assert LexLe(s[0], t[0]) by {
      if j > 0 { assert LexLe(s[0], s[j]); } else { LexLeReflexive(t[0]); }
    }
    LexLeAntisymmetric(s[0], t[0]);
  }

  /** Dropping a common head from two permutations leaves permutations. */
  lemma SameTails<A>(s: seq<A>, t: seq<A>)
    requires multiset(s) == multiset(t) && |s| > 0 && |t| > 0 && s[0] == t[0]
    ensures multiset(s[1..]) == multiset(t[1..])
  {
    assert s == [s[0]] + s[1..] && t == [t[0]] + t[1..];
    assert multiset(s) == multiset(s[1..]) + multiset{s[0]};
    assert multiset(t) == multiset(t[1..]) + multiset{s[0]};
    MultisetCancel(multiset(s[1..]), multiset(t[1..]), s[0]);
  }

  /** Sorting forgets the order of its input: any permutation of the input
      sorts to the same sequence. */
  lemma SortStringsPermutationInvariant(xs: seq<string>, ys: seq<string>)
    requires multiset(xs) == multiset(ys)
    ensures SortStrings(xs) == SortStrings(ys)
  {
    SortedUnique(SortStrings(xs), SortStrings(ys));
  }
}

=== FILE: strings.dfy ===
/** The .NET string operations the status bar relies on, over `string` as a
    sequence of characters: `Trim`, ordinal `IndexOf`, `string.Join`, the
    scalar-value ordering that stands for `OrderBy(x => x)`, decimal formatting of an `int` and `int.Parse`. */
module Strings {
  import opened Options

  // ---------------------------------------------------------------------------
  // Whitespace and trimming
  // ---------------------------------------------------------------------------

  /** The white-space characters this model recognises: horizontal tab, line
      feed, vertical tab, form feed, carriage return and space. */
  predicate IsWhite(c: char) {
    c == ' ' || c == '\t' || c == '\n' || c == '\r' || c == '\U{000B}' || c == '\U{000C}'
  }

  predicate AllWhite(s: string) {
    forall i :: 0 <= i < |s| ==> IsWhite(s[i])
  }

  /** `s` neither starts nor ends with white space. */
  predicate Trimmed(s: string) {
    |s| == 0 || (!IsWhite(s[0]) && !IsWhite(s[|s| - 1]))
  }

  /** Drops the leading white space: the result is the suffix of `s` that
      starts at its first non-white character. */
  function TrimStart(s: string): (r: string)
    ensures |r| <= |s| && r == s[|s| - |r|..]
    ensures AllWhite(s[..|s| - |r|])
    ensures |r| > 0 ==> !IsWhite(r[0])
  {
    if |s| > 0 && IsWhite(s[0]) then TrimStart(s[1..]) else s
  }

  /** Drops the trailing white space: the result is the prefix of `s` that
      ends at its last non-white character. */
  function TrimEnd(s: string): (r: string)
    ensures |r| <= |s| && r == s[..|r|]
    ensures AllWhite(s[|r|..])
    ensures |r| > 0 ==> !IsWhite(r[|r| - 1])
  {
    if |s| > 0 && IsWhite(s[|s| - 1]) then TrimEnd(s[..|s| - 1]) else s
  }

  /** `String.Trim()`: the infix of `s` left after removing white space from
      both ends. */
  function Trim(s: string): (r: string)
    ensures Trimmed(r) && |r| <= |s|
  {
    TrimEnd(TrimStart(s))
  }

  /** What `Trim` removes is white space, from the two ends only: the result
      is an infix of `s` with only white space around it. */
  lemma TrimMeaning(s: string)
    ensures exists i :: TrimsTo(s, Trim(s), i)
  {
    var t := TrimStart(s);
    assert Trim(s) == TrimEnd(t);
    TrimWitness(s, t, TrimEnd(t));
  }

  /** `r` is `s` with the white prefix `s[..i]` and a white suffix removed. */
  predicate TrimsTo(s: string, r: string, i: int) {
    0 <= i <= |s| - |r| && r == s[i..i + |r|] && AllWhite(s[..i]) && AllWhite(s[i + |r|..])
  }

  lemma TrimWitness(s: string, t: string, r: string)
    requires |t| <= |s| && t == s[|s| - |t|..] && AllWhite(s[..|s| - |t|])
    requires |r| <= |t| && r == t[..|r|] && AllWhite(t[|r|..])
    ensures TrimsTo(s, r, |s| - |t|)
  {
    var i := |s| - |t|;
    assert s[i..i + |r|] == t[..|r|];
    assert s[i + |r|..] == t[|r|..];
  }

  /** Trimming a string that is already trimmed changes nothing; in
      particular `Trim` is idempotent. */
  lemma TrimOfTrimmed(s: string)
    requires Trimmed(s)
    ensures Trim(s) == s
  {
    assert TrimStart(s) == s;
    assert TrimEnd(s) == s;
  }

  lemma TrimIdempotent(s: string)
    ensures Trim(Trim(s)) == Trim(s)
  {
    TrimOfTrimmed(Trim(s));
  }

  // ---------------------------------------------------------------------------
  // Ordinal search
  // ---------------------------------------------------------------------------

  /** `pat` occurs in `s` starting at index `i`. */
  predicate OccursAt(s: string, pat: string, i: int) {
    0 <= i && i + |pat| <= |s| && s[i..i + |pat|] == pat
  }

  /** Ordinal `s.IndexOf(pat)`: the first index at which `pat` occurs. */
  function IndexOf(s: string, pat: string): (r: Option<nat>)
    ensures r.Some? ==> OccursAt(s, pat, r.value)
    ensures r.Some? ==> forall j :: 0 <= j < r.value ==> !OccursAt(s, pat, j)
    ensures r.None? ==> forall j :: 0 <= j <= |s| ==> !OccursAt(s, pat, j)
  {
    IndexOfFrom(s, pat, 0)
  }

  /** Ordinal `s.IndexOf(pat, start)`: the first index at or after `start`
      at which `pat` occurs. */
  function IndexOfFrom(s: string, pat: string, start: nat): (r: Option<nat>)
    ensures r.Some? ==> start <= r.value && OccursAt(s, pat, r.value)
    ensures r.Some? ==> forall j :: start <= j < r.value ==> !OccursAt(s, pat, j)
    ensures r.None? ==> forall j :: start <= j <= |s| ==> !OccursAt(s, pat, j)
    decreases |s| - start
  {
    if start + |pat| > |s| then None
    else if s[start..start + |pat|] == pat then Some(start)
    else IndexOfFrom(s, pat, start + 1)
  }

  /** Ordinal `s.IndexOf(c, start)` for a one-character pattern: the first
      position at or after `start` holding `c`. */
  function IndexOfCharFrom(s: string, c: char, start: nat): (r: Option<nat>)
    ensures r.Some? ==> start <= r.value < |s| && s[r.value] == c
    ensures r.Some? ==> forall j :: start <= j < r.value ==> s[j] != c
    ensures r.None? ==> forall j :: start <= j < |s| ==> s[j] != c
    decreases |s| - start
  {
    if start >= |s| then None
    else if s[start] == c then Some(start)
    else IndexOfCharFrom(s, c, start + 1)
  }

  /** Ordinal `s.IndexOf(c)` for a one-character pattern. */
  function IndexOfChar(s: string, c: char): (r: Option<nat>)
    ensures r.Some? ==> r.value < |s| && s[r.value] == c && c !in s[..r.value]
    ensures r.None? ==> c !in s
  {
    var r := IndexOfCharFrom(s, c, 0);
    if r.Some? then
      assert forall j :: 0 <= j < r.value ==> s[..r.value][j] == s[j];
      r
    else r
  }

  // ---------------------------------------------------------------------------
  // Joining
  // ---------------------------------------------------------------------------

  /** The sum of the lengths of `xs`. */
  function TotalLength(xs: seq<string>): nat {
    if |xs| == 0 then 0 else |xs[0]| + TotalLength(xs[1..])
  }

  /** The strings of `xs` one after the other. */
  function Concat(xs: seq<string>): string {
    if |xs| == 0 then "" else xs[0] + Concat(xs[1..])
  }

  /** `string.Join(sep, xs)`: the elements in order, with one `sep` between
      neighbours and none at the ends. */
  function Join(sep: string, xs: seq<string>): (r: string)
    ensures |xs| == 0 ==> r == ""
    ensures |xs| > 0 ==> |r| >= |xs[0]| && r[..|xs[0]|] == xs[0]
  {
    if |xs| == 0 then ""
    else if |xs| == 1 then xs[0]
    else xs[0] + sep + Join(sep, xs[1..])
  }

  /** A join is as long as its parts together plus one separator between
      each two neighbours. */
  lemma {:induction false} JoinLength(sep: string, xs: seq<string>)
    requires |xs| > 0
    ensures |Join(sep, xs)| == TotalLength(xs) + (|xs| - 1) * |sep|
    decreases |xs|
  {
    if |xs| > 1 {
      JoinLength(sep, xs[1..]);
      assert (|xs| - 1) * |sep| == |sep| + (|xs| - 2) * |sep|;
    }
  }

  /** Joining without a separator is plain concatenation. */
  lemma {:induction false} JoinWithoutSeparator(xs: seq<string>)
    ensures Join("", xs) == Concat(xs)
    decreases |xs|
  {
    if |xs| == 1 {
      assert Concat(xs[1..]) == "";
      assert xs[0] + "" == xs[0];
    } else if |xs| > 1 {
      JoinWithoutSeparator(xs[1..]);
      assert xs[0] + "" + Join("", xs[1..]) == xs[0] + Concat(xs[1..]);
    }
  }

  /** Joining two non-empty runs of parts puts one separator between the
      two joins. */
  lemma {:induction false} JoinAppend(sep: string, xs: seq<string>, ys: seq<string>)
    requires |xs| > 0 && |ys| > 0
    ensures Join(sep, xs + ys) == Join(sep, xs) + sep + Join(sep, ys)
    decreases |xs|
  {
    if |xs| == 1 {
      assert (xs + ys)[1..] == ys;
    } else {
      assert (xs + ys)[1..] == xs[1..] + ys;
      JoinAppend(sep, xs[1..], ys);
    }
  }

  /** `x` occurs in `s` as one contiguous piece. */
  predicate IsInfix(x: string, s: string) {
    exists k :: 0 <= k <= |s| && x <= s[k..]
  }

  /** Where part `i` of a join starts: the parts before it, each followed by
      a separator. */
  function PartOffset(sep: string, xs: seq<string>, i: nat): nat
    requires i <= |xs|
  {
    if i == 0 then 0 else |xs[0]| + |sep| + PartOffset(sep, xs[1..], i - 1)
  }

  /** Every part of a join sits verbatim at its offset. */
  lemma {:induction false} JoinPartAt(sep: string, xs: seq<string>, i: nat)
    requires i < |xs|
    ensures var r, k := Join(sep, xs), PartOffset(sep, xs, i);
            k + |xs[i]| <= |r| && r[k..k + |xs[i]|] == xs[i]
    decreases i
  {
    if i > 0 {
      var tail, head := xs[1..], xs[0] + sep;
      var k' := PartOffset(sep, tail, i - 1);
      JoinPartAt(sep, tail, i - 1);
      assert xs[i] == tail[i - 1];
      assert PartOffset(sep, xs, i) == |head| + k';
      assert Join(sep, xs) == head + Join(sep, tail);
      ShiftedSlice(head, Join(sep, tail), k', k' + |xs[i]|);
    }
  }

  /** Every part of a join but the first directly follows a separator. */
  lemma {:induction false} JoinSeparatorBefore(sep: string, xs: seq<string>, i: nat)
    requires 0 < i < |xs|
    ensures var r, k := Join(sep, xs), PartOffset(sep, xs, i);
            |sep| <= k <= |r| && r[k - |sep|..k] == sep
    decreases i
  {
    var tail := xs[1..];
    assert Join(sep, xs) == (xs[0] + sep) + Join(sep, tail);
    if i > 1 {
      var k' := PartOffset(sep, tail, i - 1);
      JoinSeparatorBefore(sep, tail, i - 1);
      ShiftedSlice(xs[0] + sep, Join(sep, tail), k' - |sep|, k');
    }
  }

  /** Slicing behind a fixed prefix is slicing the rest. */
  lemma ShiftedSlice(p: string, t: string, lo: int, hi: int)
    requires 0 <= lo <= hi <= |t|
    ensures (p + t)[|p| + lo..|p| + hi] == t[lo..hi]
  {
  }

  /** Every part of a join occurs in it. */
  lemma JoinPartInfix(sep: string, xs: seq<string>, i: nat)
    requires i < |xs|
    ensures IsInfix(xs[i], Join(sep, xs))
  {
    JoinPartAt(sep, xs, i);
    var r, k := Join(sep, xs), PartOffset(sep, xs, i);
    assert xs[i] <= r[k..];
  }

  /** A piece of a piece of `s` is a piece of `s`. */
  lemma InfixTransitive(x: string, y: string, s: string)
    requires IsInfix(x, y) && IsInfix(y, s)
    ensures IsInfix(x, s)
  {
    var i :| 0 <= i <= |y| && x <= y[i..];
    var j :| 0 <= j <= |s| && y <= s[j..];
    assert s[j + i..][..|x|] == y[i..][..|x|];
    assert x <= s[j + i..];
  }

  /** A character that neither the separator nor any part contains does not
      occur in the join. */
  lemma {:induction false} JoinAvoids(sep: string, xs: seq<string>, c: char)
    requires c !in sep
    requires forall i :: 0 <= i < |xs| ==> c !in xs[i]
    ensures c !in Join(sep, xs)
    decreases |xs|
  {
    if |xs| > 1 {
      JoinAvoids(sep, xs[1..], c);
      assert Join(sep, xs) == xs[0] + sep + Join(sep, xs[1..]);
    }
  }

  /** With a one-character separator, the first separator of a join ends its
      first part. */
  lemma JoinFirstSep(c: char, xs: seq<string>)
    requires |xs| > 0 && c !in xs[0]
    ensures |xs| == 1 ==> Join([c], xs) == xs[0] && IndexOfChar(Join([c], xs), c).None?
    ensures |xs| > 1 ==>
              var r := Join([c], xs);
              && IndexOfChar(r, c) == Some(|xs[0]|)
              && r[..|xs[0]|] == xs[0] && r[|xs[0]| + 1..] == Join([c], xs[1..])
  {
    if |xs| > 1 {
      var r := Join([c], xs);
      assert r == xs[0] + [c] + Join([c], xs[1..]);
      assert r[..|xs[0]|] == xs[0];
      assert r[|xs[0]|] == c;
    }
  }

  /** A join with a one-character separator that no part contains can be
      split back into its parts, provided the number of parts is known or
      no part is empty (`""` joins to the same text as no parts at all). */
  lemma {:induction false} JoinInjective(c: char, xs: seq<string>, ys: seq<string>)
    requires forall i :: 0 <= i < |xs| ==> c !in xs[i]
    requires forall i :: 0 <= i < |ys| ==> c !in ys[i]
    requires |xs| == |ys| || ((forall i :: 0 <= i < |xs| ==> xs[i] != "") && (forall i :: 0 <= i < |ys| ==> ys[i] != ""))
    requires Join([c], xs) == Join([c], ys)
    ensures xs == ys
    decreases |xs|
  {
    if |xs| > 0 {
      JoinFirstSep(c, xs);
    }
    if |ys| > 0 {
      JoinFirstSep(c, ys);
    }
    assert |xs| == 0 <==> |ys| == 0;
    if |xs| > 0 {
      assert |xs| == 1 <==> |ys| == 1;
      if |xs| > 1 {
        assert |xs[0]| == |ys[0]|;
        JoinInjective(c, xs[1..], ys[1..]);
        assert xs == [xs[0]] + xs[1..] && ys == [ys[0]] + ys[1..];
      }
    }
  }

  // ---------------------------------------------------------------------------
  // Scalar-value ordering
  // ---------------------------------------------------------------------------

  /** Lexicographic order on scalar values: `a` is a prefix of `b`, or `a` has the
      smaller character at the first position where they differ. */
  predicate LexLe(a: string, b: string)
    decreases |a|
  {
    |a| == 0 || (|b| > 0 && (a[0] < b[0] || (a[0] == b[0] && LexLe(a[1..], b[1..]))))
  }

  lemma {:induction false} LexLeReflexive(a: string)
    ensures LexLe(a, a)
    decreases |a|
  {
    if |a| > 0 {
      LexLeReflexive(a[1..]);
    }
  }

  lemma {:induction false} LexLeTotal(a: string, b: string)
    ensures LexLe(a, b) || LexLe(b, a)
    decreases |a|
  {
    if |a| > 0 && |b| > 0 && a[0] == b[0] {
      LexLeTotal(a[1..], b[1..]);
    }
  }

  lemma {:induction false} LexLeAntisymmetric(a: string, b: string)
    requires LexLe(a, b) && LexLe(b, a)
    ensures a == b
    decreases |a|
  {
    if |a| > 0 {
      LexLeAntisymmetric(a[1..], b[1..]);
      assert a == [a[0]] + a[1..] && b == [b[0]] + b[1..];
    }
  }

  lemma {:induction false} LexLeTransitive(a: string, b: string, c: string)
    requires LexLe(a, b) && LexLe(b, c)
    ensures LexLe(a, c)
    decreases |a|
  {
    if |a| > 0 && a[0] == b[0] && b[0] == c[0] {
      LexLeTransitive(a[1..], b[1..], c[1..]);
    }
  }

  // ---------------------------------------------------------------------------
  // Decimal digits, formatting and parsing
  // ---------------------------------------------------------------------------

  /** Lower and upper bound of a C# 32-bit `int`. */
  const Int32Min: int := -0x8000_0000
  const Int32Max: int := 0x7FFF_FFFF

  predicate IsInt32(n: int) {
    Int32Min <= n <= Int32Max
  }

  /** ASCII decimal digit. */
  predicate IsDigit(c: char) {
    '0' <= c <= '9'
  }

  predicate AllDigits(s: string) {
    forall i :: 0 <= i < |s| ==> IsDigit(s[i])
  }

  function DigitChar(d: nat): (c: char)
    requires d < 10
    ensures IsDigit(c)
  {
    (48 + d) as char
  }

  function DigitValue(c: char): (d: nat)
    requires IsDigit(c)
    ensures d < 10
  {
    (c as int - 48) as nat
  }

  /** The number a string of decimal digits denotes (most significant first). */
  function DigitsValue(ds: string): nat
    requires AllDigits(ds)
  {
    if |ds| == 0 then 0
    else DigitsValue(ds[..|ds| - 1]) * 10 + DigitValue(ds[|ds| - 1])
  }

  /** The shortest decimal representation of `n`. */
  function NatToString(n: nat): (r: string)
    ensures |r| > 0 && AllDigits(r)
    ensures |r| > 1 ==> r[0] != '0'
    decreases n
  {
    if n < 10 then [DigitChar(n)]
    else NatToString(n / 10) + [DigitChar(n % 10)]
  }

  /** Reading back the decimal representation gives the number again. */
  lemma {:induction false} NatToStringRoundTrip(n: nat)
    ensures DigitsValue(NatToString(n)) == n
    decreases n
  {
    var r := NatToString(n);
    if n >= 10 {
      NatToStringRoundTrip(n / 10);
      assert r[..|r| - 1] == NatToString(n / 10);
    }
  }

  /** Invariant-culture decimal formatting of an integer: an optional `-`
      followed by the shortest digit string. */
  function IntToString(n: int): (r: string)
    ensures |r| > 0 && Trimmed(r)
    ensures n >= 0 ==> AllDigits(r)
    ensures n < 0 ==> r[0] == '-' && AllDigits(r[1..]) && |r| > 1
  {
    if n < 0 then "-" + NatToString(-n) else NatToString(n)
  }

  /** The value `s` denotes when it is an optional sign followed by at least
      one digit. */
  function SignedValue(s: string): Option<int> {
    if |s| > 0 && (s[0] == '-' || s[0] == '+') then
      (if |s| > 1 && AllDigits(s[1..])
       then var v: int := if s[0] == '-' then -(DigitsValue(s[1..]) as int) else DigitsValue(s[1..]); Some(v)
       else None)
    else if |s| > 0 && AllDigits(s) then Some(DigitsValue(s))
    else None
  }

  /** `int.Parse(s)` on text that has no surrounding white space (every
      caller trims first, or passes digits only): an optionally signed run of
      digits whose value fits in 32 bits. `None` stands for the
      `FormatException` or `OverflowException` it throws. */
  function ParseInt32(s: string): (r: Option<int>)
    ensures r.Some? ==> IsInt32(r.value)
  {
    match SignedValue(s)
    case Some(v) => if IsInt32(v) then Some(v) else None
    case None => None
  }

  /** Parsing the decimal formatting of a 32-bit integer gives it back. */
  lemma IntToStringRoundTrip(n: int)
    requires IsInt32(n)
    ensures ParseInt32(IntToString(n)) == Some(n)
  {
    SignedValueOfIntToString(n);
  }

  lemma SignedValueOfIntToString(n: int)
    ensures SignedValue(IntToString(n)) == Some(n)
  {
    if n < 0 {
      NatToStringRoundTrip(-n);
      NegatedDigitsValue(NatToString(-n));
    } else {
      NatToStringRoundTrip(n);
      DigitsSignedValue(NatToString(n));
    }
  }

  lemma DigitsSignedValue(ds: string)
    requires |ds| > 0 && AllDigits(ds)
    ensures SignedValue(ds) == Some(DigitsValue(ds) as int)
  {
    assert IsDigit(ds[0]);
  }

  lemma NegatedDigitsValue(ds: string)
    requires |ds| > 0 && AllDigits(ds)
    ensures SignedValue("-" + ds) == Some(-(DigitsValue(ds) as int))
  {
    assert ("-" + ds)[1..] == ds;
  }
}

=== FILE: volume.dfy ===
/** The decision logic of the volume block: three `pactl` outputs are parsed
    into a mute flag, an active port and a percentage, which pick the block's
    icon, background and content. */
module Volume {
  import opened Options
  import opened Strings
  import opened Config

  /** How one `pactl` run ended, as far as the block can tell: the timeout
      elapsed first, the caller's cancellation fired, or the process exited
      with a code and its standard output. */
  datatype PactlOutcome = TimedOut | Cancelled | Exited(exitCode: int, stdout: string)

  const MuteArguments := "get-sink-mute @DEFAULT_SINK@"
  const SinksArguments := "list sinks"
  const VolumeArguments := "get-sink-volume @DEFAULT_SINK@"

  /** The text the block gets from one `pactl` run: `ERR` for a timeout, a
      cancellation or a non-zero exit code, the trimmed output otherwise. */
  function PactlResult(o: PactlOutcome): (r: string)
    ensures o.Exited? && o.exitCode == 0 ==> r == Trim(o.stdout)
    ensures !(o.Exited? && o.exitCode == 0) ==> r == "ERR"
  {
    match o
    case TimedOut => "ERR"
    case Cancelled => "ERR"
    case Exited(code, stdout) => if code != 0 then "ERR" else Trim(stdout)
  }

  // ---------------------------------------------------------------------------
  // Mute flag
  // ---------------------------------------------------------------------------

  /** Muted exactly when the text after the first `:` reads `yes` once
      trimmed; no `:` at all (the `ERR` of a failed run) means not muted. */
  function IsMute(text: string): bool {
    match IndexOfChar(text, ':')
    case None => false
    case Some(ci) =>
      var status := Trim(text[ci + 1..]);
      if status == "yes" then true
      else if status == "no" then false
      else false
  }

  /** `IsMute` answers exactly whether the text after the first `:` reads
      `yes` once trimmed. */
  lemma IsMuteMeaning(text: string)
    ensures IsMute(text) <==> exists i :: 0 <= i < |text| && text[i] == ':' && ':' !in text[..i]
                                          && Trim(text[i + 1..]) == "yes"
  {
    match IndexOfChar(text, ':')
    case None =>
    case Some(ci) =>
      FirstColon(text, ci);
  }

  /** Only the first `:` can be a first `:`. */
  lemma FirstColon(text: string, ci: nat)
    requires ci < |text| && text[ci] == ':' && ':' !in text[..ci]
    ensures forall i :: 0 <= i < |text| && text[i] == ':' && ':' !in text[..i] ==> i == ci
  {
    assert forall i :: 0 <= i < ci ==> text[..ci][i] == text[i];
    assert forall i :: ci < i <= |text| ==> text[..i][ci] == ':';
  }

  /** `pactl get-sink-mute` prints `Mute: yes` or `Mute: no`; both are read
      as meant, whatever white space surrounds the answer. */
  lemma MuteAnswerRead(key: string, pad: string, answer: string)
    requires ':' !in key && AllWhite(pad)
    requires answer == "yes" || answer == "no"
    ensures IsMute(key + ":" + pad + answer) <==> answer == "yes"
  {
    var text := key + ":" + pad + answer;
    ColonAfterKey(key, pad + answer);
    assert text == key + ":" + (pad + answer);
    assert text[|key| + 1..] == pad + answer;
    TrimLeadingWhite(pad, answer);
  }

  /** The first `:` of `key:rest` is the one after `key` when `key` has none. */
  lemma ColonAfterKey(key: string, rest: string)
    requires ':' !in key
    ensures IndexOfChar(key + ":" + rest, ':') == Some(|key|)
  {
    var text := key + ":" + rest;
    assert text[|key|] == ':';
    assert text[..|key|] == key;
    FirstColon(text, |key|);
  }

  /** Leading white space before a trimmed word is trimmed away. */
  lemma TrimLeadingWhite(pad: string, word: string)
    requires AllWhite(pad) && |word| > 0 && Trimmed(word)
    ensures Trim(pad + word) == word
    decreases |pad|
  {
    if |pad| == 0 {
      assert pad + word == word;
      TrimOfTrimmed(word);
    } else {
      assert (pad + word)[1..] == pad[1..] + word;
      TrimLeadingWhite(pad[1..], word);
      assert TrimStart(pad + word) == TrimStart(pad[1..] + word);
    }
  }

  /** A failed `pactl` run never reads as muted. */
  lemma FailedRunNotMuted()
    ensures !IsMute("ERR")
  {
    assert forall i :: 0 <= i < 3 ==> "ERR"[i] != ':';
  }

  // ---------------------------------------------------------------------------
  // Volume percentage
  // ---------------------------------------------------------------------------

  /** Where the run of digits that ends just before `end` starts: the
      backwards scan of `GetVolume`. */
  function DigitRunStart(s: string, end: nat): (start: nat)
    requires end <= |s|
    ensures start <= end && AllDigits(s[start..end])
    ensures start == 0 || !IsDigit(s[start - 1])
    decreases end
  {
    if end > 0 && IsDigit(s[end - 1]) then
      var start := DigitRunStart(s, end - 1);
      assert s[start..end] == s[start..end - 1] + [s[end - 1]];
      start
    else end
  }

  /** The volume `GetVolume` reads: the maximal run of digits right before
      the first `%`, or 0 when there is no `%`, no digit before it, or the
      digits overflow an `int`. */
  function ParseVolume(text: string): (v: int)
    ensures 0 <= v <= Int32Max
    ensures '%' !in text ==> v == 0
    // the digit run before the first `%` gives the volume; an empty run or
    // one that overflows an `int` gives 0
    ensures IndexOfChar(text, '%').Some? ==>
              var ci := IndexOfChar(text, '%').value;
              var run := text[DigitRunStart(text, ci)..ci];
              v == (if |run| > 0 && DigitsValue(run) <= Int32Max then DigitsValue(run) else 0)
  {
    match IndexOfChar(text, '%')
    case None => 0
    case Some(ci) =>
      var vol := text[DigitRunStart(text, ci)..ci];
      if vol == "" then 0
      else
        DigitsSignedValue(vol);
        match ParseInt32(vol)
        case Some(n) => n
        case None => 0
  }

  /** `pactl get-sink-volume` prints the percentage as digits followed by
      `%` (`Volume: front-left: 65536 /  100% / ...`): the number is read
      back as printed, provided nothing before it is a `%` or a digit glued
      to it. */
  lemma VolumeRead(prefix: string, n: nat, rest: string)
    requires '%' !in prefix
    requires |prefix| == 0 || !IsDigit(prefix[|prefix| - 1])
    requires n <= Int32Max
    ensures ParseVolume(prefix + NatToString(n) + "%" + rest) == n
  {
    var digits := NatToString(n);
    var text := prefix + digits + "%" + rest;
    var ci := |prefix| + |digits|;
    FirstPercent(prefix, digits, rest);
    assert text[..ci] == prefix + digits;
    DigitRunOf(prefix, digits, text, ci);
    assert text[|prefix|..ci] == digits;
    NatStringParses(n);
    VolumeCut(text, ci, |prefix|, n);
  }

  /** `ParseVolume` reads the digits between the start of their run and the
      first `%`. */
  lemma VolumeCut(text: string, ci: nat, start: nat, n: int)
    requires IndexOfChar(text, '%') == Some(ci) && start < ci
    requires DigitRunStart(text, ci) == start
    requires ParseInt32(text[start..ci]) == Some(n)
    ensures ParseVolume(text) == n
  {
  }

  /** The `%` after the printed number is the first one. */
  lemma FirstPercent(prefix: string, digits: string, rest: string)
    requires '%' !in prefix && AllDigits(digits)
    ensures IndexOfChar(prefix + digits + "%" + rest, '%') == Some(|prefix| + |digits|)
  {
    var text := prefix + digits + "%" + rest;
    var ci := |prefix| + |digits|;
    assert text[ci] == '%';
    assert text[..ci] == prefix + digits;
    assert '%' !in digits by {
      assert forall i :: 0 <= i < |digits| ==> IsDigit(digits[i]);
    }
  }

  /** The decimal digits of a 32-bit natural parse back to it. */
  lemma NatStringParses(n: nat)
    requires n <= Int32Max
    ensures ParseInt32(NatToString(n)) == Some(n)
  {
    NatToStringRoundTrip(n);
    var ds := NatToString(n);
    assert !(ds[0] == '-' || ds[0] == '+');
  }

  lemma DigitRunOf(prefix: string, digits: string, text: string, ci: nat)
    requires AllDigits(digits) && (|prefix| == 0 || !IsDigit(prefix[|prefix| - 1]))
    requires ci == |prefix| + |digits| && ci <= |text| && text[..ci] == prefix + digits
    ensures DigitRunStart(text, ci) == |prefix|
    decreases |digits|
  {
    if |digits| == 0 {
      if ci > 0 {
        assert text[ci - 1] == prefix[|prefix| - 1];
      }
    } else {
      var shorter := digits[..|digits| - 1];
      assert text[ci - 1] == digits[|digits| - 1];
      assert text[..ci - 1] == prefix + shorter;
      DigitRunOf(prefix, shorter, text, ci - 1);
    }
  }

  // ---------------------------------------------------------------------------
  // Active port
  // ---------------------------------------------------------------------------

  const ActivePortMarker := "Active Port:"

  /** How `GetOutputIcon` reads the sink listing: the marker is missing (the
      search for the line end is then started at index -1, which throws), no
      port name could be cut out (`?`), or the trimmed port name. */
  datatype PortParse = MissingMarker | NoPortName | Port(name: string)

  function ParsePort(sinks: string): (r: PortParse)
    ensures r.MissingMarker? <==> forall j :: 0 <= j <= |sinks| ==> !OccursAt(sinks, ActivePortMarker, j)
    ensures r.Port? ==> Trimmed(r.name) && '\n' !in r.name
  {
    match IndexOf(sinks, ActivePortMarker)
    case None => MissingMarker
    case Some(si) => PortAt(sinks, si)
  }

  /** The port name cut from the marker at `si` to the end of its line. */
  function PortAt(sinks: string, si: nat): (r: PortParse)
    ensures !r.MissingMarker?
    ensures r.Port? ==> Trimmed(r.name) && '\n' !in r.name
  {
    match IndexOfCharFrom(sinks, '\n', si)
    case None => NoPortName
    case Some(ei) =>
      var offset := |ActivePortMarker|;
      if ei <= si + offset then NoPortName
      else
        var between := sinks[si + offset..ei];
        assert '\n' !in between by {
          assert forall j :: 0 <= j < |between| ==> between[j] == sinks[si + offset + j];
        }
        var name := Trim(between);
        assert forall c :: c in name ==> c in between;
        Port(name)
  }

  /** The icon `GetOutputIcon` yields; `None` is the exception of a listing
      without the marker. A listing the name cannot be cut from shows `?`,
      the two known ports show their icons, and any other port keeps the
      block's current icon. */
  function OutputIcon(e: VolumeExtra, current: string, sinks: string): (r: Option<string>)
    ensures r.None? <==> ParsePort(sinks).MissingMarker?
    ensures ParsePort(sinks).NoPortName? ==> r == Some("?")
    ensures ParsePort(sinks).Port? ==>
              r == Some(if ParsePort(sinks).name == "analog-output-headphones" then e.headphonesIcon
                        else if ParsePort(sinks).name == "analog-output-speaker" then e.speakerIcon
                        else current)
  {
    match ParsePort(sinks)
    case MissingMarker => None
    case NoPortName => Some("?")
    case Port(name) =>
      if name == "analog-output-headphones" then Some(e.headphonesIcon)
      else if name == "analog-output-speaker" then Some(e.speakerIcon)
      else Some(current)
  }

  /** A listing line `Active Port: <name>` is read back as `<name>`, provided
      the marker does not occur earlier and the line ends. */
  lemma PortRead(prefix: string, name: string, rest: string)
    requires forall j :: 0 <= j < |prefix| ==> !OccursAt(prefix + ActivePortMarker, ActivePortMarker, j)
    requires Trimmed(name) && |name| > 0 && '\n' !in name
    ensures ParsePort(prefix + ActivePortMarker + " " + name + "\n" + rest) == Port(name)
  {
    var sinks := prefix + ActivePortMarker + " " + name + "\n" + rest;
    assert sinks == prefix + ActivePortMarker + (" " + name + "\n" + rest);
    MarkerFirstAt(prefix, " " + name + "\n" + rest, sinks);
    LineAfterMarker(prefix, name, rest, sinks);
    PortLineRead(sinks, |prefix|, |prefix| + |ActivePortMarker| + 1 + |name|, name);
  }

  /** A first marker at `si` whose line holds a space and `name` reads as
      `name`. */
  lemma PortLineRead(sinks: string, si: nat, ei: nat, name: string)
    requires IndexOf(sinks, ActivePortMarker) == Some(si)
    requires ei == si + |ActivePortMarker| + 1 + |name| && IndexOfCharFrom(sinks, '\n', si) == Some(ei)
    requires sinks[si + |ActivePortMarker|..ei] == " " + name
    requires Trimmed(name) && |name| > 0
    ensures ParsePort(sinks) == Port(name)
  {
    SpaceTrimmed(sinks[si + |ActivePortMarker|..ei], name);
    PortCut(sinks, si, ei, name);
    PortFound(sinks, si);
  }

  /** A marker with no line end after it shows `?`. */
  lemma UnterminatedPortLine(e: VolumeExtra, current: string, prefix: string, tail: string)
    requires forall j :: 0 <= j < |prefix| ==> !OccursAt(prefix + ActivePortMarker, ActivePortMarker, j)
    requires '\n' !in tail
    ensures OutputIcon(e, current, prefix + ActivePortMarker + tail) == Some("?")
  {
    var sinks := prefix + ActivePortMarker + tail;
    MarkerFirstAt(prefix, tail, sinks);
    var si: nat := |prefix|;
    forall j | si <= j < |sinks|
      ensures sinks[j] != '\n'
    {
      if j < si + |ActivePortMarker| {
        assert sinks[j] == ActivePortMarker[j - si];
      } else {
        assert sinks[j] == tail[j - si - |ActivePortMarker|];
      }
    }
    assert IndexOfCharFrom(sinks, '\n', si).None?;
    PortFound(sinks, si);
  }

  /** A line end right after the marker leaves no port name: `?`. */
  lemma EmptyPortLine(e: VolumeExtra, current: string, prefix: string, rest: string)
    requires forall j :: 0 <= j < |prefix| ==> !OccursAt(prefix + ActivePortMarker, ActivePortMarker, j)
    ensures OutputIcon(e, current, prefix + ActivePortMarker + "\n" + rest) == Some("?")
  {
    var head := prefix + ActivePortMarker;
    var sinks := head + "\n" + rest;
    assert sinks == prefix + ActivePortMarker + ("\n" + rest);
    MarkerFirstAt(prefix, "\n" + rest, sinks);
    var si: nat := |prefix|;
    assert head[si..] == ActivePortMarker;
    assert head + "" + "\n" + rest == sinks;
    LineEnd(head, "", rest, si);
    PortFound(sinks, si);
  }

  /** With the first marker at `si`, the listing reads as the line there. */
  lemma PortFound(sinks: string, si: nat)
    requires IndexOf(sinks, ActivePortMarker) == Some(si)
    ensures ParsePort(sinks) == PortAt(sinks, si)
  {
  }

  /** `PortAt` yields the trimmed text between the marker and the line end. */
  lemma PortCut(sinks: string, si: nat, ei: nat, name: string)
    requires ei > si + |ActivePortMarker| && IndexOfCharFrom(sinks, '\n', si) == Some(ei)
    requires Trim(sinks[si + |ActivePortMarker|..ei]) == name
    ensures PortAt(sinks, si) == Port(name)
  {
  }

  /** The line after the marker runs up to the line end after `name`. */
  lemma LineAfterMarker(prefix: string, name: string, rest: string, sinks: string)
    requires '\n' !in name
    requires sinks == prefix + ActivePortMarker + " " + name + "\n" + rest
    ensures var si := |prefix|;
            var ei := si + |ActivePortMarker| + 1 + |name|;
            IndexOfCharFrom(sinks, '\n', si) == Some(ei) && sinks[si + |ActivePortMarker|..ei] == " " + name
  {
    var line := " " + name;
    var head := prefix + ActivePortMarker;
    assert sinks == head + line + "\n" + rest;
    var si := |prefix|;
    assert head[si..] == ActivePortMarker;
    LineEnd(head, line, rest, si);
    assert sinks[si + |ActivePortMarker|..si + |ActivePortMarker| + |line|] == line;
  }

  lemma SpaceTrimmed(line: string, name: string)
    requires Trimmed(name) && |name| > 0 && line == " " + name
    ensures Trim(line) == name
  {
    assert AllWhite(" ");
    TrimLeadingWhite(" ", name);
  }

  /** The marker found at the end of `prefix + marker` is the first one in
      anything that continues it. */
  lemma MarkerFirstAt(prefix: string, tail: string, sinks: string)
    requires forall j :: 0 <= j < |prefix| ==> !OccursAt(prefix + ActivePortMarker, ActivePortMarker, j)
    requires sinks == prefix + ActivePortMarker + tail
    ensures IndexOf(sinks, ActivePortMarker) == Some(|prefix|)
  {
    var head := prefix + ActivePortMarker;
    var offset := |ActivePortMarker|;
    forall j | 0 <= j < |prefix|
      ensures !OccursAt(sinks, ActivePortMarker, j)
    {
      assert !OccursAt(head, ActivePortMarker, j);
      assert sinks[j..j + offset] == head[j..j + offset];
    }
    assert sinks[|prefix|..|prefix| + offset] == ActivePortMarker;
    assert OccursAt(sinks, ActivePortMarker, |prefix|);
  }

  /** The first line end at or after `si` in `head + line + "\n" + rest` is
      the one after `line`, when neither `line` nor `head` from `si` on holds
      one. */
  lemma LineEnd(head: string, line: string, rest: string, si: nat)
    requires si <= |head| && '\n' !in head[si..] && '\n' !in line
    ensures IndexOfCharFrom(head + line + "\n" + rest, '\n', si) == Some(|head| + |line|)
  {
    var sinks := head + line + "\n" + rest;
    var ei := |head| + |line|;
    forall j | si <= j < ei
      ensures sinks[j] != '\n'
    {
      if j < |head| {
        assert sinks[j] == head[si..][j - si];
      } else {
        assert sinks[j] == line[j - |head|];
      }
    }
    assert sinks[ei] == '\n';
  }

  // ---------------------------------------------------------------------------
  // One content step
  // ---------------------------------------------------------------------------

  /** One content step of the volume block, given the three `pactl` texts in
      the order the block asks for them. `background` is the settings'
      background and `icon` the block's current icon. `None` is the step
      throwing (a listing without the marker); the block then keeps its
      state. */
  function UpdateContent(e: VolumeExtra, background: string, icon: string,
                         muteText: string, sinksText: string, volumeText: string): (r: Option<Produced>)
    // muted: mute icon and colour, no text
    ensures IsMute(muteText) ==> r == Some(Produced("", e.muteColour, e.muteIcon))
    // not muted: only a listing without the marker makes the step throw
    ensures !IsMute(muteText) ==> (r.None? <==> ParsePort(sinksText).MissingMarker?)
    // not muted: port icon, settings background, and the parsed volume in
    // decimal, which reads back as that volume
    ensures !IsMute(muteText) && r.Some? ==>
              && Some(r.value.icon) == OutputIcon(e, icon, sinksText)
              && r.value.bg == background
              && r.value.inner == IntToString(ParseVolume(volumeText))
              && ParseInt32(r.value.inner) == Some(ParseVolume(volumeText))
  {
    if IsMute(muteText) then Some(Produced("", e.muteColour, e.muteIcon))
    else
      match OutputIcon(e, icon, sinksText)
      case None => None
      case Some(newIcon) =>
        var volume := ParseVolume(volumeText);
        IntToStringRoundTrip(volume);
        Some(Produced(IntToString(volume), background, newIcon))
  }

  /** A `pactl list sinks` that fails (timeout, cancellation or non-zero
      exit) yields `ERR`, which has no port marker: unless the sink is muted,
      the volume block's step throws. */
  lemma FailedListingThrows(e: VolumeExtra, background: string, icon: string,
                            muteText: string, failed: PactlOutcome, volumeText: string)
    requires !(failed.Exited? && failed.exitCode == 0)
    requires !IsMute(muteText)
    ensures UpdateContent(e, background, icon, muteText, PactlResult(failed), volumeText).None?
  {
    assert forall j :: 0 <= j <= 3 ==> !OccursAt("ERR", ActivePortMarker, j);
  }
}
